=== FILE: README.md ===
# Seminar lead scoring, modelled in Dafny

This project models the scoring run of the seminar lead-scoring page (`app.py` of the
Scoring application). When staff press "実行" (run), the page does the following:

- It binds the demographic filter to named query parameters.
- It collects the candidate companies that attended the current organizer's seminars.
- It selects the seminar rows of those companies and scores every row (`calculate_score`).
- It sums the scores per company into an insertion-ordered dictionary.
- It sorts the companies stably by total, highest first, and shows the top five.
- For each of those five, it gathers the titles of seminars held by *other* organizers. The
  Japanese morphological analyser turns that text into tokens, and a word filter decides
  which token surfaces are joined with spaces and handed to the word cloud.

The organizer is chosen from labels of the form `Name【Code】`, which are parsed back into a
code.

All of this is written as pure functions over immutable datatypes, in one module per stage:

- `Wrappers`: the `Option` type.
- `Seqs`: order-preserving filtering and subsequences.
- `Text`: the Python string operations the page uses. These are `in` on strings,
  `split(c)[0]`, `split(c)[-1]`, `replace(c, '')`, `' '.join` and decimal formatting.
- `Rows`: the warehouse row.
- `Scoring`: the per-row score.
- `Aggregation`: the per-company totals.
- `Ranking`: the stable sort and the top-N cut.
- `CrossSeminar`: other-organizer history and the keyword text.
- `Keywords`: the word filter.
- `OrganizerLabel`: the label format and parse.
- `QueryParams`: the filter parameters.
- `Candidates`: the candidate companies and the row selection.
- `Pipeline`: the whole run.

The modelling choices:

- **Optional text columns.** A column that may be NULL or missing is an `Option<string>`.
  Python truthiness is `IsFilled`: the column is present and not `""`. `Status` is optional
  too, and a missing status is simply not "出席" (attended).
- **The organizer code of a row.** `Organizer_Code` may be NULL, so a row's code is an
  `Option<string>`. The other-seminar test compares it with `!=`, and a NULL code is never
  equal to the current organizer's code. A row with no code therefore counts as another
  organizer's seminar.
- **Phrase tables.** The two first-match-wins categories are ordered rule tables.
  `FollowUpPriority`, `IntentPriority` and `ScoreMatchesSource` prove that the tables
  compute exactly what the source's `if`/`elif` chains compute.
- **Integers.** Scores are natural numbers. Nothing in the scoring can overflow in Python,
  so no wrap-around is modelled.
- **The dictionary.** `company_scores` is an association list with unique keys in first
  insertion order. `sorted(..., reverse=True)` is a stable insertion sort, specified by
  equal-total groups (`WithTotal`) that keep input order.
- **Row selection.** `Run` selects rows through the escaped names, as the code does.
  `RunCorrected` is the same run with the names passed unescaped (see "## Findings").
- **The keyword regular expressions.** `re.match('^…$')` is written out character by
  character. Python's `$` also matches just before one trailing newline, and `EndsAt`
  models that.

Some behaviours of the code that a reader might not expect, and that the model keeps:

- **Intent phrases.** The intent answer is matched with a substring test (`in`), never with
  equality.
- **Two empty outcomes.** There are two separate ways to end with no leads: no candidate
  company (app.py:238-240) and no scored company (app.py:298-300). `Outcome` keeps them
  apart instead of returning one empty list.
- **Company names.** A company name is kept when it is truthy. It is not trimmed.
- **The cut.** The top cut is fixed at five (`TOP_N`, app.py:325). `TopN` itself takes the
  cut as a parameter.
- **Totals on screen.** The ranked heading does not show the total, because the line
  that did is commented out (app.py:327). `Lead` still carries the total, since the ranking is defined
  by it.

## Model

| member | source | states |
|---|---|---|
| Scoring.Score | app.py:262-284 | A score never exceeds 3 + 3 plus the largest award of each phrase table, which is 14 by `Scoring.ScoreBounds`. `Scoring.ScoreMatchesSource` proves it equals the source's chain of tests. |
| Scoring.CategoryPoints | app.py:269-282 | One `if row.get(..)` block with its `elif` chain. It never awards more than the table's largest award. It awards nothing unless the answer is filled, and nothing when no phrase occurs. `Scoring.CategoryPointsFirstMatch` proves that the first matching phrase decides. |
| Scoring.ScoreMatchesSource | app.py:263-283 | The table-driven score equals the source's chain of tests for every row. That chain is +3 for "出席", +3 for any filled survey answer, 5/3 for the follow-up phrases, and 3/3/2/1 for the intent phrases, each chain stopping at the first hit. |
| Scoring.ScoreBounds | app.py:263-283 | Every score is at most 3+3+5+3 = 14. Attendance guarantees at least 3, and so does any survey answer. |
| Scoring.FollowUpPriority | app.py:269-273 | The follow-up table is first-match-wins. Text holding both phrases earns 5, never 8. Text holding only "資料希望" earns 3. Other text earns 0. |
| Scoring.IntentPriority | app.py:274-282 | The intent table awards 3, 3, 2 or 1 for the first phrase found in priority order, and 0 when none is found. |
| Scoring.CategoryPointsFirstMatch | app.py:269-282 | A category awards the points of its first matching phrase, never more than the table maximum. An absent or empty answer earns nothing, and so does an answer that matches no phrase. |
| Scoring.FirstMatchFrom | app.py:270-282 | The `elif` scan returns the index of the first phrase contained in the text, or reports that no phrase matches. |
| Scoring.AttendanceOnlyScoresThree | app.py:264-268 | A row that only says "出席" scores exactly 3. |
| Scoring.NoSignalScoresZero | app.py:264-283 | A row with any other status and no other signal scores 0. |
| Scoring.AttendanceAddsThree | app.py:265-266 | Changing the status to "出席" adds exactly 3, whatever the rest of the row holds. |
| Scoring.SurveyAddsThree | app.py:267-268 | One filled survey answer adds 3, and three filled answers still add only 3. |
| Aggregation.Aggregate | app.py:286-293 | `company_scores` never holds a company twice, and it is empty when there are no rows. `Aggregation.AggregateIsTally` proves its keys, totals and order. |
| Aggregation.AddScore | app.py:289-293 | One loop step keeps the keys unique. An existing key gains the score in place and every other entry is unchanged. A new key is appended with the score. The sum of all totals grows by exactly the score. |
| Aggregation.Tally | app.py:286-293 | The folded dictionary never holds a key twice. |
| Aggregation.AggregateIsTally | app.py:286-293 | The dictionary has no duplicate keys. Its keys are exactly the company names of the rows. Each total is the sum of that company's row scores. Entries are ordered by first occurrence in the rows. |
| Aggregation.TallyKeys | app.py:286-293 | A name is a key of the folded dictionary if and only if some scored row carries it. |
| Aggregation.TallyTotals | app.py:288-293 | Each entry's total is the sum of the scores of that company's rows. |
| Aggregation.TallyOrder | app.py:290-293 | Entries appear in the order their companies first occur. |
| Aggregation.AggregateConservesScore | app.py:286-293 | The totals add up to the sum of the scores of all rows. |
| Aggregation.ZeroScoringCompanyKept | app.py:290-293 | A company all of whose rows score 0 still appears, with total 0. |
| Ranking.Rank | app.py:296 | The ranking is non-increasing in total, is a permutation of its input, and keeps every equal-total group in input order. |
| Ranking.RankIsUnique | app.py:296 | Any non-increasing arrangement that keeps every equal-total group in input order is exactly the ranking. Ranking is therefore reproducible, ties included. |
| Ranking.RankKeepsTieOrder | app.py:296 | Two ranked entries with equal totals occur in the input in the same order. |
| Ranking.TieKeepsFirstSeen | app.py:296 | Two companies with equal totals keep their first-seen order. |
| Ranking.TopN | app.py:325-326 | The cut returns exactly `min(n, len)` entries, as a prefix with no padding. On a sorted list, no entry left out beats an entry kept. |
| CrossSeminar.OtherSeminars | app.py:331-334 | The selection is an order-preserving subsequence of the rows. It holds exactly the rows of the company held by another organizer, including rows with no organizer code, each as often as in the input. It is empty exactly when all of the company's rows belong to the current organizer. |
| CrossSeminar.ThreeOwnTwoOther | app.py:331-334 | For five rows of one company, three from the current organizer and two from others, the selection is exactly the two other-organizer rows, in order. |
| CrossSeminar.Corpus | app.py:336-343 | There is no keyword text exactly when the company has no other-organizer row. Otherwise the text contains the title of every other-organizer row. |
| Text.Contains | app.py:270-282 | Python's `needle in hay` on strings. `Text.ContainsIffOccurs` proves what it means. |
| Text.ContainsIffOccurs | app.py:270-282 | `needle in hay` holds exactly when the needle occurs at some position of the text, as a contiguous block. |
| Text.Join | app.py:337 | `' '.join` of no titles is empty and of one title is that title. Its length is the titles' total length plus one separator between each pair. Every title occurs in the result. |
| Text.JoinFront | app.py:337 | The join of two or more titles is the first title, the separator, then the join of the rest. With the two cases above this fixes the text: the titles in order, one separator between neighbours. |
| Keywords.IsContentToken | app.py:306 | A token whose part-of-speech string is exactly "名詞" (noun) or "動詞" (verb) passes. Any token that passes has a part-of-speech string starting with one of the two. |
| Keywords.IsTwoHiragana | app.py:311 | Every word of two hiragana matches. A match is two characters long, or three when the third is a newline, because Python's `$` also matches before a final newline. |
| Keywords.IsKanjiThenHiragana | app.py:312 | Every word of one kanji and then one hiragana matches. No match is also a two-hiragana match, because the two character classes share no character. |
| Keywords.IsKeyword | app.py:308-315 | A keyword is at least two characters long and is not an excluded word. Conversely, every word of four or more characters that is not excluded is a keyword, because neither pattern matches more than three characters. |
| Keywords.ContentSurfaces | app.py:306 | The first comprehension yields exactly the surfaces of the noun and verb tokens, in token order and each as often as its token occurs. This is a subsequence of all surfaces, and each word is the surface of a noun or verb token. |
| Text.BeforeFirst | app.py:306 | `split(',')[0]` is the longest prefix without a comma, and is the whole string when there is no comma. |
| Keywords.WordFilter | app.py:308-315 | The four successive comprehensions keep exactly the words that pass all four tests, in order. |
| Keywords.Keywords | app.py:305-315 | The keywords are exactly the surfaces of the noun and verb tokens, filtered by the four word tests, in order and with every repetition kept. This list, joined with spaces, is what is handed to WordCloud. The keywords form a subsequence of the token surfaces. Each keyword comes from a noun or verb token, is longer than one character, is neither two hiragana nor one kanji plus one hiragana, and is not an excluded word. |
| Keywords.KeywordsComplete | app.py:306-315 | Every noun or verb token whose surface passes the four tests yields a keyword. |
| Keywords.WordFilterIdempotent | app.py:308-315 | Running the word filter on its own output changes nothing. |
| OrganizerLabel.Format | app.py:100 | The label is the name, then `【`, then the code, then `】`. Its length is the name's plus the code's plus 2, it starts with the name, the opening bracket follows the name, and the closing bracket is last. `OrganizerLabel.ParseFormat` proves that parsing inverts it. |
| OrganizerLabel.Parse | app.py:105 | The parsed code contains neither bracket and is a subsequence of the label. A label without brackets parses to itself, so "" parses to "". |
| OrganizerLabel.ParseFormat | app.py:100-105 | Parsing `Name【Code】` gives back Code for every name, provided the code contains neither bracket. |
| OrganizerLabel.ChosenCode | app.py:103-105 | The blank choice yields the empty code. Choosing an organizer yields its code. |
| OrganizerLabel.GroupOrganizerCode | app.py:114-122 | A member company gets the code of the first organizer of its lookup, when that code contains no bracket. An empty lookup yields no code, which is the error branch. |
| Text.AfterLast | app.py:105 | `split('【')[-1]` is the suffix after the last marker, which holds no marker. It is the whole string when there is no marker. |
| Text.RemoveChar | app.py:105 | `replace('】', '')` deletes exactly the closing brackets. Every other character keeps its multiplicity and the order is kept. |
| Candidates.CandidateCompanies | app.py:235-236 | A company is a candidate if and only if some attendee row carries it as a non-empty name. |
| Candidates.EscapeCompanyName | app.py:242-243 | Quote doubling never shortens a name. It changes exactly the names that contain an apostrophe. |
| Candidates.EscapeRoundTrip | app.py:242-243 | Reading the doubled quotes back as SQL does recovers the original name. |
| Candidates.SelectedRowsAsWritten | app.py:245-256 | As written, a row is selected if and only if its raw company name equals an escaped candidate name. The selection keeps row order, and each selected row occurs as often as in the input. |
| Candidates.SelectedRows | app.py:247-256 | With the names passed unescaped, a row is selected if and only if its company is a candidate. The selection keeps row order, each selected row occurs as often as in the input, and when every row is a candidate's, all rows are kept. |
| Candidates.AsWrittenDropsQuotedName | app.py:242-256 | For the company "A'B", the code as written selects none of its rows, while the corrected selection keeps them. |
| Candidates.AsWrittenAgreesWithoutQuotes | app.py:242-256 | When no candidate name contains an apostrophe, the code as written and the corrected selection agree. |
| QueryParams.IndustryValues | app.py:172-200 | Each "IT関連企業" checkbox adds four values more than a plain one. Without "IT関連企業" the values are the chosen industries themselves. |
| QueryParams.IndustryValuesMembers | app.py:172-200 | A value is searched for if and only if it is a chosen industry other than "IT関連企業", or it is one of the five IT values and "IT関連企業" is chosen. |
| QueryParams.IndustryValuesAppend | app.py:187-200 | The loop handles the checkboxes one after another: the values of two selections in a row are the values of the first followed by those of the second. |
| QueryParams.IndustryValuesSingle | app.py:172-200 | "IT関連企業" on its own stands for the five IT values, in their listed order. Any other industry stands for itself. |
| QueryParams.NumberedThenRest | app.py:185-200 | Numbering one block of values and then the next block, starting where the first stopped, numbers the two blocks as one. |
| QueryParams.IndustryParams | app.py:185-200 | The industry loop binds `industry_<counter+i>` to the i-th search value, with the counter running on across the five IT values. |
| QueryParams.QueryParameters | app.py:171-217 | The parameter list binds `industry_<k>` to the k-th search value, then `employee_size_<k>` to the k-th size, then `position_<k>` to the k-th position, and finally `organizer_code`. Nothing else is in it. |
| QueryParams.AdditionalConditions | app.py:182-214 | There is one non-empty OR group per non-empty selection. |
| QueryParams.ConditionsUseParameters | app.py:185-217 | The LIKE conditions, read in order, use exactly the bound parameters except the organizer code, position by position. |
| QueryParams.ParameterNamesDistinct | app.py:187-217 | No two parameters of the attendee query share a name. |
| Text.Decimal | app.py:192 | `f"{n}"` for a counter is at least one character, all decimal digits, with no leading zero once the counter reaches 10. |
| Text.DecimalRoundTrip | app.py:192 | Reading the digits back gives the counter. |
| Text.DecimalInjective | app.py:192 | Distinct counters render to distinct parameter-name suffixes. |
| Pipeline.LeadsOf | app.py:296-326 | There are at most five leads, numbered 1, 2, … in order. `Pipeline.LeadsOfReport` proves what each lead holds. |
| Pipeline.LeadsOfReport | app.py:286-343 | The report is as follows: <br>- There are at most five leads, and none exactly when there are no rows. <br>- Leads are numbered from 1. <br>- Each lead names a company of the rows with its full total, in non-increasing order, with no company twice. <br>- Each lead's keyword text is its company's other-seminar text. That text is missing exactly for companies seen only at the current organizer. <br>- Every company without a lead is outranked by all five leads. Outranked means each lead has a larger total, or the same total and a company that first appears earlier in the rows. |
| Pipeline.TiedLeadsInFirstSeenOrder | app.py:286-296 | Leads with equal totals are listed in the order their companies first appear in the rows. |
| Pipeline.RankKeepsCompaniesDistinct | app.py:286-296 | The ranked list never shows a company twice. |
| Pipeline.Run | app.py:233-343 | A run, with rows selected as written through the escaped names, ends in "no candidates" exactly when the candidate set is empty. It ends in "no scored companies" exactly when no selected row remains. Otherwise it yields the non-empty leads of the selected rows. |
| Pipeline.RunCorrected | app.py:233-343 | The same three outcomes, with the rows selected by unescaped names. |
| Pipeline.RunAgreesWithoutQuotes | app.py:242-256 | When no candidate name contains an apostrophe, the run as written and the corrected run end the same way. |
| Pipeline.QuotedNameStopsRun | app.py:242-300 | For the candidate "A'B" with one row, the run as written stops with "no scored companies", while the corrected run ranks the company. |
| Pipeline.TwoRowScenario | app.py:263-343 | With the corrected selection, one company with a current-organizer row worth 3 and another organizer's row worth 2 becomes the single lead, with total 5 and only the other seminar's title as keyword text. |
| Pipeline.AcmeScenario | app.py:233-343 | In the run as written, an attended row at A and a "製品・サービスの候補を探している" (searching for candidate products) answer at B give Acme rank 1 with total 5 when A is the current organizer. The keyword text is B's title. |

## Left out

- The Streamlit page flow: login, session state, widgets, `st.stop` and messages. This is
  presentation. `Outcome` records which stop is reached.
- `authenticate`: an HTTP call to a remote API.
- The BigQuery client, `run_query`, result caching and the SQL text. These are foreign
  calls. The attendee query's conditions are modelled only as their structure: which
  parameter each `LIKE` uses. Their evaluation in the warehouse is not modelled.
- The six-month window based on `datetime.today()`. The rows are taken as already
  windowed.
- The `ORDER BY Company_Name, Seminar_Date` of the second query. The rows are taken in
  whatever order the warehouse returns, and every property holds for any order.
- The Janome tokenizer and the WordCloud/matplotlib rendering: external libraries. Tokens
  are an input of `Keywords.Keywords`. WordCloud re-tokenizes and recounts the joined
  keywords with its own rules, so the model says nothing about the counts in the picture.
  Whether a word cloud is drawn for an empty keyword list is the library's business.
- Exceptions from the query or the rendering, and the error message at app.py:340-341.
- The order of `list(set(...))` at app.py:236. The candidates are a set, because the row
  selection only asks for membership.
- A NULL `Seminar_Title` would make `' '.join` raise. Titles are modelled as always
  present.
- The unterminated f-string at app.py:328, which would stop the file from parsing. The
  model follows the evident intent: one heading per lead.
- CrossSeminar.Corpus: its own contract states that every other-organizer title occurs in
  the keyword text, not the exact text. The exact text is `Text.Join` of the titles in row
  order, and `Text.Join` with `Text.JoinFront` fixes that text completely.
- OrganizerLabel.Format: a NULL `Organizer_Name` or `Organizer_Code` is rendered as
  "None" by the f-string at app.py:100, and a NULL-code group then parses to the code
  "None". The model takes both fields of `Organizer` as the strings already rendered, so
  it does not express a NULL name or code.
- OrganizerLabel.ParseFormat: holds only for codes without `【` or `】`. A code with either
  bracket does not survive the label format, and the source does not guard against that.
- OrganizerLabel.ChosenCode: states the chosen code only for organizers whose code
  contains no bracket, for the same reason.
- OrganizerLabel.GroupOrganizerCode: states the first organizer's code only when that code
  contains no bracket, for the same reason. A bracketed code is parsed back into a
  different string.

## Findings

| source | as written | input that shows it | evidently intended | confidence | as-written member | corrected member |
|---|---|---|---|---|---|---|
| app.py:242-256 | Company names have their apostrophes doubled, as for an SQL string literal. They are then passed as a bound array parameter and compared with `Company_Name IN UNNEST(@companies)`. Bound parameters are compared verbatim, so a doubled quote never matches. | A candidate company named "A'B": the array holds "A''B", so none of its rows is selected, and with no other candidate the run stops with "no scored companies" (app.py:298-300). | Pass the names unescaped, since a bound parameter needs no quoting. Every row of every candidate company is then selected. | medium, not executed | Candidates.AsWrittenDropsQuotedName | Candidates.SelectedRows |

=== FILE: aggregation.dfy ===
/** The `company_scores` dictionary: row scores summed per company. A Python dict keeps
    its keys in insertion order, so it is modelled as an association list whose keys are
    unique and appear in the order the companies are first seen. */
module Aggregation {
  import opened Rows
  import opened Scoring

  /** One dictionary entry: a company and its total score. */
  datatype CompanyScore = CompanyScore(company: string, total: nat)

  function Keys(t: seq<CompanyScore>): (keys: seq<string>)
    ensures |keys| == |t|
    ensures forall i | 0 <= i < |t| :: keys[i] == t[i].company
  {
    seq(|t|, i requires 0 <= i < |t| => t[i].company)
  }

  predicate NoDuplicates(s: seq<string>)
  {
    forall i, j | 0 <= i < j < |s| :: s[i] != s[j]
  }

  /** Sum of the totals of all entries. */
  function SumTotals(t: seq<CompanyScore>): nat
  {
    if t == [] then 0 else t[0].total + SumTotals(t[1..])
  }

  /** One step of the loop body: `company_scores[name] += score` when the key exists,
      otherwise `company_scores[name] = score` (a new key goes to the end). */
  function AddScore(t: seq<CompanyScore>, name: string, score: nat): (r: seq<CompanyScore>)
    requires NoDuplicates(Keys(t))
    ensures NoDuplicates(Keys(r))
    ensures name in Keys(t) ==> |r| == |t|
    ensures name !in Keys(t) ==> |r| == |t| + 1 && r[|t|] == CompanyScore(name, score)
    ensures forall i | 0 <= i < |t| ::
      r[i] == CompanyScore(t[i].company, t[i].total + if t[i].company == name then score else 0)
    ensures SumTotals(r) == SumTotals(t) + score
  {
    var k := FirstIndex(Keys(t), name);
    if k < |t| then
      var r := t[k := CompanyScore(name, t[k].total + score)];
      assert Keys(r) == Keys(t);
      SumTotalsUpdate(t, k, r[k]);
      r
    else
      var r := t + [CompanyScore(name, score)];
      assert Keys(r) == Keys(t) + [name];
      SumTotalsAppend(t, r[|t|]);
      r
  }

  lemma {:induction false} SumTotalsUpdate(t: seq<CompanyScore>, k: nat, e: CompanyScore)
    requires k < |t|
    ensures SumTotals(t[k := e]) + t[k].total == SumTotals(t) + e.total
    decreases |t|
  {
    if k > 0 {
      assert t[k := e][1..] == t[1..][k - 1 := e];
      SumTotalsUpdate(t[1..], k - 1, e);
    }
  }

  lemma {:induction false} SumTotalsAppend(t: seq<CompanyScore>, e: CompanyScore)
    ensures SumTotals(t + [e]) == SumTotals(t) + e.total
    decreases |t|
  {
    if t != [] {
      assert (t + [e])[1..] == t[1..] + [e];
      SumTotalsAppend(t[1..], e);
    }
  }

  /** Position of the first occurrence of `x` in `s`, or `|s|` when it does not occur. */
  function FirstIndex(s: seq<string>, x: string): (k: nat)
    ensures k <= |s|
    ensures k < |s| ==> s[k] == x
    ensures forall j | 0 <= j < k :: s[j] != x
  {
    if s == [] then 0 else if s[0] == x then 0 else 1 + FirstIndex(s[1..], x)
  }

  /** Each row scored: the `(name, score)` pair one iteration of the loop adds. */
  function Scored(rows: seq<Row>): (entries: seq<CompanyScore>)
  {
    seq(|rows|, i requires 0 <= i < |rows| => CompanyScore(rows[i].companyName, Score(rows[i])))
  }

  /** The loop over scored rows, left to right. Each key is added at most once. */
  function Tally(entries: seq<CompanyScore>): (t: seq<CompanyScore>)
    ensures NoDuplicates(Keys(t))
  {
    if entries == [] then []
    else
      var last := entries[|entries| - 1];
      AddScore(Tally(entries[..|entries| - 1]), last.company, last.total)
  }

  /** The whole loop at app.py:286-293. */
  function Aggregate(rows: seq<Row>): (t: seq<CompanyScore>)
    ensures NoDuplicates(Keys(t))
    ensures rows == [] ==> t == []
  {
    Tally(Scored(rows))
  }

  /** Sum of the scores the entries give `company`. */
  function Total(entries: seq<CompanyScore>, company: string): nat
  {
    if entries == [] then 0
    else
      var last := entries[|entries| - 1];
      Total(entries[..|entries| - 1], company) + (if last.company == company then last.total else 0)
  }

  /** Sum of the scores of the rows of `company`. */
  function CompanyTotal(rows: seq<Row>, company: string): nat
  {
    Total(Scored(rows), company)
  }

  /** Sum of the scores of all rows. */
  function TotalScore(rows: seq<Row>): nat
  {
    SumTotals(Scored(rows))
  }

  /** The scored rows carry the rows' company names. */
  lemma ScoredKeys(rows: seq<Row>)
    ensures Keys(Scored(rows)) == CompanyNames(rows)
  {
  }

  /** What the finished dictionary holds: one entry per company of the rows, each with
      the sum of that company's row scores, in first-seen order. */
  ghost predicate IsTally(rows: seq<Row>, t: seq<CompanyScore>)
  {
    && NoDuplicates(Keys(t))
    && (forall c :: c in Keys(t) <==> c in CompanyNames(rows))
    && (forall i | 0 <= i < |t| :: t[i].total == CompanyTotal(rows, t[i].company))
    && (forall i, j | 0 <= i < j < |t| ::
          FirstIndex(CompanyNames(rows), t[i].company) < FirstIndex(CompanyNames(rows), t[j].company))
  }

  /** The loop computes the tally of the rows. */
  lemma AggregateIsTally(rows: seq<Row>)
    ensures IsTally(rows, Aggregate(rows))
  {
    var entries, t := Scored(rows), Aggregate(rows);
    ScoredKeys(rows);
    TallyKeys(entries);
    TallyTotals(entries);
    TallyOrder(entries);
    assert forall c :: c in Keys(t) <==> c in CompanyNames(rows);
    assert forall i | 0 <= i < |t| :: t[i].total == CompanyTotal(rows, t[i].company);
  }

  /** The dictionary's keys are exactly the names of the entries. */
  lemma {:induction false} TallyKeys(entries: seq<CompanyScore>)
    ensures forall c :: c in Keys(Tally(entries)) <==> c in Keys(entries)
    decreases |entries|
  {
    if entries != [] {
      var init, last := entries[..|entries| - 1], entries[|entries| - 1];
      TallyKeys(init);
      assert Keys(entries) == Keys(init) + [last.company];
      StepKeys(Tally(init), Tally(entries), Keys(init), last.company, last.total);
    }
  }

  /** Each dictionary entry holds the sum of its company's scores. */
  lemma {:induction false} TallyTotals(entries: seq<CompanyScore>)
    ensures forall i | 0 <= i < |Tally(entries)| ::
      Tally(entries)[i].total == Total(entries, Tally(entries)[i].company)
    decreases |entries|
  {
    if entries != [] {
      var init, last := entries[..|entries| - 1], entries[|entries| - 1];
      TallyTotals(init);
      TallyKeys(init);
      assert entries == init + [last];
      StepTotals(init, last, Tally(init), Tally(entries));
    }
  }

  /** Dictionary entries appear in the order their companies are first seen. */
  lemma {:induction false} TallyOrder(entries: seq<CompanyScore>)
    ensures forall i, j | 0 <= i < j < |Tally(entries)| ::
      FirstIndex(Keys(entries), Tally(entries)[i].company) < FirstIndex(Keys(entries), Tally(entries)[j].company)
    decreases |entries|
  {
    if entries != [] {
      var init, last := entries[..|entries| - 1], entries[|entries| - 1];
      TallyOrder(init);
      TallyKeys(init);
      assert Keys(entries) == Keys(init) + [last.company];
      StepOrder(Tally(init), Tally(entries), Keys(init), last.company, last.total);
    }
  }

  /** No score is lost or counted twice: the entries of the dictionary sum to the sum of
      all row scores. */
  lemma AggregateConservesScore(rows: seq<Row>)
    ensures SumTotals(Aggregate(rows)) == TotalScore(rows)
  {
    TallyConserves(Scored(rows));
  }

  lemma {:induction false} TallyConserves(entries: seq<CompanyScore>)
    ensures SumTotals(Tally(entries)) == SumTotals(entries)
    decreases |entries|
  {
    if entries != [] {
      var init, last := entries[..|entries| - 1], entries[|entries| - 1];
      TallyConserves(init);
      assert entries == init + [last];
      SumTotalsAppend(init, last);
    }
  }

  /** After one step the keys are the names seen so far. */
  lemma StepKeys(prev: seq<CompanyScore>, t: seq<CompanyScore>, names: seq<string>, name: string, score: nat)
    requires NoDuplicates(Keys(prev))
    requires forall c :: c in Keys(prev) <==> c in names
    requires t == AddScore(prev, name, score)
    ensures forall c :: c in Keys(t) <==> c in names + [name]
  {
    forall c
      ensures c in Keys(t) <==> c in names + [name]
    {
      if c in Keys(t) {
        var i :| 0 <= i < |t| && Keys(t)[i] == c;
        if i < |prev| {
          assert Keys(prev)[i] == prev[i].company;
        }
      }
      if c in Keys(prev) {
        var i :| 0 <= i < |prev| && Keys(prev)[i] == c;
        assert Keys(t)[i] == c;
      }
      if c == name && name !in Keys(prev) {
        assert Keys(t)[|prev|] == c;
      }
    }
  }

  /** After one step every entry holds its company's total over the rows seen so far. */
  lemma StepTotals(init: seq<CompanyScore>, last: CompanyScore, prev: seq<CompanyScore>, t: seq<CompanyScore>)
    requires NoDuplicates(Keys(prev))
    requires last.company !in Keys(prev) ==> last.company !in Keys(init)
    requires forall i | 0 <= i < |prev| :: prev[i].total == Total(init, prev[i].company)
    requires t == AddScore(prev, last.company, last.total)
    ensures forall i | 0 <= i < |t| :: t[i].total == Total(init + [last], t[i].company)
  {
    var entries := init + [last];
    assert entries[..|entries| - 1] == init;
    forall i | 0 <= i < |t|
      ensures t[i].total == Total(entries, t[i].company)
    {
      var c := t[i].company;
      assert Total(entries, c) == Total(init, c) + (if last.company == c then last.total else 0);
      if i == |prev| {
        TotalAbsent(init, last.company);
      }
    }
  }

  /** After one step the keys are still ordered by first occurrence. */
  lemma StepOrder(prev: seq<CompanyScore>, t: seq<CompanyScore>, names: seq<string>, name: string, score: nat)
    requires NoDuplicates(Keys(prev))
    requires forall c :: c in Keys(prev) <==> c in names
    requires forall i, j | 0 <= i < j < |prev| ::
      FirstIndex(names, prev[i].company) < FirstIndex(names, prev[j].company)
    requires t == AddScore(prev, name, score)
    ensures forall i, j | 0 <= i < j < |t| ::
      FirstIndex(names + [name], t[i].company) < FirstIndex(names + [name], t[j].company)
  {
    forall i, j | 0 <= i < j < |t|
      ensures FirstIndex(names + [name], t[i].company) < FirstIndex(names + [name], t[j].company)
    {
      assert Keys(prev)[i] == prev[i].company;
      FirstIndexExtend(names, prev[i].company, name);
      if j < |prev| {
        assert Keys(prev)[j] == prev[j].company;
        FirstIndexExtend(names, prev[j].company, name);
      } else {
        FirstIndexExtend(names, name, name);
      }
    }
  }

  /** A company without entries has total 0. */
  lemma {:induction false} TotalAbsent(entries: seq<CompanyScore>, company: string)
    requires company !in Keys(entries)
    ensures Total(entries, company) == 0
    decreases |entries|
  {
    if entries != [] {
      var init := entries[..|entries| - 1];
      assert Keys(entries) == Keys(init) + [entries[|entries| - 1].company];
      TotalAbsent(init, company);
    }
  }

  /** Appending an element does not move first occurrences, and a new element's first
      occurrence is the appended position. */
  lemma {:induction false} FirstIndexExtend(s: seq<string>, x: string, y: string)
    ensures x in s ==> FirstIndex(s + [y], x) == FirstIndex(s, x) < |s|
    ensures x !in s && x == y ==> FirstIndex(s + [y], x) == |s|
    decreases |s|
  {
    if s != [] {
      assert (s + [y])[1..] == s[1..] + [y];
      FirstIndexExtend(s[1..], x, y);
    }
  }

  /** A company all of whose rows score 0 still gets an entry, with total 0. */
  lemma ZeroScoringCompanyKept(rows: seq<Row>, company: string)
    requires company in CompanyNames(rows)
    requires forall i | 0 <= i < |rows| :: rows[i].companyName == company ==> Score(rows[i]) == 0
    ensures CompanyScore(company, 0) in Aggregate(rows)
  {
    var entries := Scored(rows);
    ScoredKeys(rows);
    assert forall k | 0 <= k < |entries| :: entries[k].company == company ==> entries[k].total == 0;
    ZeroTotalKept(entries, company);
  }

  lemma ZeroTotalKept(entries: seq<CompanyScore>, company: string)
    requires company in Keys(entries)
    requires forall i | 0 <= i < |entries| :: entries[i].company == company ==> entries[i].total == 0
    ensures CompanyScore(company, 0) in Tally(entries)
  {
    var t := Tally(entries);
    assert company in Keys(t) by { TallyKeys(entries); }
    var i :| 0 <= i < |t| && Keys(t)[i] == company;
    assert t[i].total == Total(entries, company) by { TallyTotals(entries); }
    assert Total(entries, company) == 0 by { TotalZero(entries, company); }
    assert t[i] == CompanyScore(company, 0);
  }

  lemma {:induction false} TotalZero(entries: seq<CompanyScore>, company: string)
    requires forall i | 0 <= i < |entries| :: entries[i].company == company ==> entries[i].total == 0
    ensures Total(entries, company) == 0
    decreases |entries|
  {
    if entries != [] {
      TotalZero(entries[..|entries| - 1], company);
    }
  }
}

=== FILE: candidates.dfy ===
/** The candidate companies (those that attended the current organizer's seminars and
    match the demographic filter) and the selection of their seminar rows. The second
    warehouse query keeps a row when `Company_Name IN UNNEST(@companies)`; the names in
    that array parameter went through `escape_company_name` first. */
module Candidates {
  import opened Wrappers
  import opened Seqs
  import opened Rows

  const QUOTE: char := '\''

  /** The distinct non-empty company names of the attendee rows. The source turns them
      into a list through a set, so their order is not specified and a set models them. */
  function CandidateCompanies(names: seq<Option<string>>): (companies: set<string>)
    ensures forall c :: c in companies <==> c != "" && Some(c) in names
  {
    set i | 0 <= i < |names| && IsFilled(names[i]) :: names[i].value
  }

  /** `name.replace("'", "''")`. */
  function EscapeCompanyName(name: string): (escaped: string)
    ensures |escaped| >= |name|
    ensures QUOTE !in name ==> escaped == name
    ensures QUOTE in name ==> escaped != name
  {
    if name == [] then []
    else
      var rest := EscapeCompanyName(name[1..]);
      if name[0] == QUOTE then [QUOTE, QUOTE] + rest else [name[0]] + rest
  }

  /** SQL's reading of a doubled quote: every `''` stands for one `'`. */
  function UnescapeQuotes(s: string): string
  {
    if |s| >= 2 && s[0] == QUOTE && s[1] == QUOTE then [QUOTE] + UnescapeQuotes(s[2..])
    else if s == [] then []
    else [s[0]] + UnescapeQuotes(s[1..])
  }

  /** Doubling quotes loses nothing: undoing it gives the name back. */
  lemma {:induction false} EscapeRoundTrip(name: string)
    ensures UnescapeQuotes(EscapeCompanyName(name)) == name
    decreases |name|
  {
    if name != [] {
      EscapeRoundTrip(name[1..]);
      var rest := EscapeCompanyName(name[1..]);
      if name[0] == QUOTE {
        assert ([QUOTE, QUOTE] + rest)[2..] == rest;
      } else {
        assert ([name[0]] + rest)[1..] == rest;
      }
    }
  }

  function EscapedNames(companies: set<string>): set<string>
  {
    set c | c in companies :: EscapeCompanyName(c)
  }

  /** The rows of the second query AS WRITTEN: raw `Company_Name` values compared with the
      escaped names of the array parameter. */
  function SelectedRowsAsWritten(rows: seq<Row>, companies: set<string>): (selected: seq<Row>)
    ensures IsSubsequence(selected, rows)
    ensures forall row :: row in selected <==> row in rows && row.companyName in EscapedNames(companies)
    ensures forall row :: multiset(selected)[row] ==
                          if row.companyName in EscapedNames(companies) then multiset(rows)[row] else 0
  {
    var escaped := EscapedNames(companies);
    var keep := (row: Row) => row.companyName in escaped;
    FilterMembers(rows, keep);
    FilterMultiset(rows, keep);
    FilterIsSubsequence(rows, keep);
    Filter(rows, keep)
  }

  /** The rows of the candidate companies: a bound array parameter is compared verbatim,
      so the names are passed unescaped. */
  function SelectedRows(rows: seq<Row>, companies: set<string>): (selected: seq<Row>)
    ensures IsSubsequence(selected, rows)
    ensures forall row :: row in selected <==> row in rows && row.companyName in companies
    ensures forall row :: multiset(selected)[row] == if row.companyName in companies then multiset(rows)[row] else 0
    ensures (forall k | 0 <= k < |rows| :: rows[k].companyName in companies) ==> selected == rows
  {
    var keep := (row: Row) => row.companyName in companies;
    assert (forall k | 0 <= k < |rows| :: rows[k].companyName in companies) ==> Filter(rows, keep) == rows by {
      if forall k | 0 <= k < |rows| :: rows[k].companyName in companies {
        FilterAllPass(rows, keep);
      }
    }
    FilterMembers(rows, keep);
    FilterMultiset(rows, keep);
    FilterIsSubsequence(rows, keep);
    Filter(rows, keep)
  }

  /** A company whose name contains an apostrophe loses all its rows as written. */
  lemma AsWrittenDropsQuotedName(row: Row)
    requires row.companyName == "A'B"
    ensures SelectedRowsAsWritten([row], {"A'B"}) == []
    ensures SelectedRows([row], {"A'B"}) == [row]
  {
    assert EscapeCompanyName("A'B") == "A''B" by {
      assert "A'B"[1..] == "'B";
      assert "'B"[1..] == "B";
      assert "B"[1..] == [];
    }
    assert EscapedNames({"A'B"}) == {"A''B"};
    var selected := SelectedRowsAsWritten([row], {"A'B"});
    assert forall r | r in selected :: false;
    var kept := SelectedRows([row], {"A'B"});
    assert row in kept;
    assert forall r | r in kept :: r == row;
    SingletonSubsequence(kept, row);
  }

  /** A subsequence of `[x]` that contains `x` is `[x]`. */
  lemma SingletonSubsequence(s: seq<Row>, x: Row)
    requires IsSubsequence(s, [x]) && x in s
    ensures s == [x]
  {
    assert s[0] == x;
    assert IsSubsequence(s[1..], []);
  }

  /** For names without apostrophes the code as written selects exactly the right rows. */
  lemma AsWrittenAgreesWithoutQuotes(rows: seq<Row>, companies: set<string>)
    requires forall c | c in companies :: QUOTE !in c
    ensures SelectedRowsAsWritten(rows, companies) == SelectedRows(rows, companies)
  {
    assert EscapedNames(companies) == companies;
    var escaped := EscapedNames(companies);
    FilterExtensional(rows, (row: Row) => row.companyName in escaped, (row: Row) => row.companyName in companies);
  }
}

=== FILE: cross_seminar.dfy ===
/** The other-seminar history of one ranked company (`other_seminars`): its rows from
    seminars of any organizer but the current one, and the text handed to keyword
    extraction, the titles joined by single spaces. */
module CrossSeminar {
  import opened Wrappers
  import opened Seqs
  import opened Text
  import opened Rows

  /** The row belongs to `company` and to a seminar of another organizer. A NULL
      `Organizer_Code` differs from every code, so such a row counts as another
      organizer's. */
  predicate IsOtherSeminar(row: Row, company: string, organizerCode: string)
  {
    row.companyName == company && row.organizerCode != Some(organizerCode)
  }

  /** `IsOtherSeminar` as a filter condition. */
  function OtherSeminarTest(company: string, organizerCode: string): Row -> bool
  {
    row => IsOtherSeminar(row, company, organizerCode)
  }

  /** The list comprehension at app.py:331-334. */
  function OtherSeminars(rows: seq<Row>, company: string, organizerCode: string): (r: seq<Row>)
    ensures IsSubsequence(r, rows)
    ensures forall row :: row in r <==> row in rows && IsOtherSeminar(row, company, organizerCode)
    ensures forall row ::
              multiset(r)[row] == if IsOtherSeminar(row, company, organizerCode) then multiset(rows)[row] else 0
    ensures r == [] <==>
      forall i | 0 <= i < |rows| :: rows[i].companyName == company ==> rows[i].organizerCode == Some(organizerCode)
  {
    var p := OtherSeminarTest(company, organizerCode);
    FilterIsSubsequence(rows, p);
    FilterMembers(rows, p);
    FilterMultiset(rows, p);
    var r := Filter(rows, p);
    EmptyIffNoOther(rows, r, company, organizerCode);
    r
  }

  lemma EmptyIffNoOther(rows: seq<Row>, r: seq<Row>, company: string, organizerCode: string)
    requires forall row :: row in r <==> row in rows && IsOtherSeminar(row, company, organizerCode)
    ensures r == [] <==>
      forall i | 0 <= i < |rows| :: rows[i].companyName == company ==> rows[i].organizerCode == Some(organizerCode)
  {
    if r != [] {
      assert r[0] in rows;
    }
    forall i | 0 <= i < |rows| && rows[i].companyName == company && rows[i].organizerCode != Some(organizerCode)
      ensures r != []
    {
      assert rows[i] in r;
    }
  }

  function Titles(rows: seq<Row>): (titles: seq<string>)
  {
    seq(|rows|, i requires 0 <= i < |rows| => rows[i].seminarTitle)
  }

  /** The keyword-extraction input for `company`, or `None` when the company has no
      other-seminar history (the warning branch at app.py:342-343). */
  function Corpus(rows: seq<Row>, company: string, organizerCode: string): (c: Option<string>)
    ensures c.None? <==>
      forall i | 0 <= i < |rows| :: rows[i].companyName == company ==> rows[i].organizerCode == Some(organizerCode)
    ensures c.Some? ==> forall row | row in rows && IsOtherSeminar(row, company, organizerCode) ::
      Contains(row.seminarTitle, c.value)
  {
    var other := OtherSeminars(rows, company, organizerCode);
    if other == [] then None
    else
      var text := Join(Titles(other), " ");
      forall row | row in rows && IsOtherSeminar(row, company, organizerCode)
        ensures Contains(row.seminarTitle, text)
      {
        var i :| 0 <= i < |other| && other[i] == row;
        assert Titles(other)[i] == row.seminarTitle;
      }
      Some(text)
  }

  /** Five rows of one company, three from the current organizer and two from others:
      the selector returns exactly the two, in order. */
  lemma ThreeOwnTwoOther(own1: Row, own2: Row, own3: Row, other1: Row, other2: Row, organizerCode: string)
    requires own1.companyName == own2.companyName == own3.companyName == other1.companyName == other2.companyName
    requires own1.organizerCode == own2.organizerCode == own3.organizerCode == Some(organizerCode)
    requires other1.organizerCode != Some(organizerCode) && other2.organizerCode != Some(organizerCode)
    ensures OtherSeminars([own1, other1, own2, other2, own3], own1.companyName, organizerCode) == [other1, other2]
  {
    FilterThreeOwnTwoOther(own1, own2, own3, other1, other2, OtherSeminarTest(own1.companyName, organizerCode));
  }

  lemma FilterThreeOwnTwoOther(own1: Row, own2: Row, own3: Row, other1: Row, other2: Row, p: Row -> bool)
    requires !p(own1) && !p(own2) && !p(own3) && p(other1) && p(other2)
    ensures Filter([own1, other1, own2, other2, own3], p) == [other1, other2]
  {
    FilterCons(own3, [], p);
    FilterCons(other2, [own3], p);
    FilterCons(own2, [other2, own3], p);
    FilterCons(other1, [own2, other2, own3], p);
    FilterCons(own1, [other1, own2, other2, own3], p);
  }
}

=== FILE: keywords.dfy ===
/** The word filter inside `generate_wordcloud`: which tokens of the other-seminar titles
    become keywords. The morphological analyser is outside the model; its output (surface
    form and comma-separated part-of-speech string per token) is the input here. */
module Keywords {
  import opened Seqs
  import opened Text

  datatype Token = Token(surface: string, partOfSpeech: string)

  const NOUN: string := "名詞"
  const VERB: string := "動詞"

  /** The fixed stop-word set `exclude_words`. */
  const EXCLUDED_WORDS: set<string> := {
    "ギフト", "ギフトカード", "サービス", "できる", "ランキング", "可能", "課題", "会員", "会社", "開始",
    "開発", "活用", "管理", "企業", "機能", "記事", "技術", "業界", "後編", "公開", "最適", "支援",
    "事業", "実現", "重要", "世界", "成功", "製品", "戦略", "前編", "対策", "抽選", "調査", "提供",
    "投資", "導入", "発表", "必要", "方法", "目指す", "問題", "利用", "理由", "する", "解説", "影響",
    "与える"
  }

  /** The character class `[ぁ-ん]`: U+3041 to U+3093. */
  predicate IsHiragana(c: char)
  {
    'ぁ' <= c <= 'ん'
  }

  /** The character class `[一-龠々]`: U+4E00 to U+9FA0, and U+3005. */
  predicate IsKanji(c: char)
  {
    ('一' <= c <= '龠') || c == '々'
  }

  /** The anchor `$` after `k` characters: the end of the word, or a single final newline
      (Python's `$` also matches just before a trailing "\n"). */
  predicate EndsAt(w: string, k: nat)
  {
    |w| == k || (|w| == k + 1 && w[k] == '\n')
  }

  /** `re.match('^[ぁ-ん]{2}$', w)` succeeds. */
  predicate IsTwoHiragana(w: string): (b: bool)
    ensures |w| == 2 && IsHiragana(w[0]) && IsHiragana(w[1]) ==> b
    ensures b ==> |w| == 2 || (|w| == 3 && w[2] == '\n')
  {
    |w| >= 2 && IsHiragana(w[0]) && IsHiragana(w[1]) && EndsAt(w, 2)
  }

  /** `re.match('^[一-龠々]{1}[ぁ-ん]{1}$', w)` succeeds. */
  predicate IsKanjiThenHiragana(w: string): (b: bool)
    ensures |w| == 2 && IsKanji(w[0]) && IsHiragana(w[1]) ==> b
    ensures b ==> !IsTwoHiragana(w)
  {
    |w| >= 2 && IsKanji(w[0]) && IsHiragana(w[1]) && EndsAt(w, 2)
  }

  /** The major part of speech (the field before the first comma) is noun or verb. */
  predicate IsContentToken(t: Token): (b: bool)
    ensures t.partOfSpeech == NOUN || t.partOfSpeech == VERB ==> b
    ensures b ==> NOUN <= t.partOfSpeech || VERB <= t.partOfSpeech
  {
    var major := BeforeFirst(t.partOfSpeech, ',');
    major == NOUN || major == VERB
  }

  /** A word that passes all four word filters. */
  predicate IsKeyword(w: string): (b: bool)
    ensures b ==> |w| >= 2 && w !in EXCLUDED_WORDS
    ensures |w| >= 4 && w !in EXCLUDED_WORDS ==> b
  {
    |w| > 1 && !IsTwoHiragana(w) && !IsKanjiThenHiragana(w) && w !in EXCLUDED_WORDS
  }

  function Surfaces(tokens: seq<Token>): (words: seq<string>)
    ensures |words| == |tokens|
    ensures forall i | 0 <= i < |tokens| :: words[i] == tokens[i].surface
  {
    seq(|tokens|, i requires 0 <= i < |tokens| => tokens[i].surface)
  }

  /** The first comprehension: surfaces of noun and verb tokens, in order. */
  function ContentSurfaces(tokens: seq<Token>): (words: seq<string>)
    ensures words == Surfaces(Filter(tokens, IsContentToken))
    ensures IsSubsequence(words, Surfaces(tokens))
    ensures forall w | w in words :: exists t | t in tokens :: IsContentToken(t) && t.surface == w
  {
    if tokens == [] then []
    else
      var rest := ContentSurfaces(tokens[1..]);
      assert Surfaces(tokens)[1..] == Surfaces(tokens[1..]);
      assert forall t | t in tokens[1..] :: t in tokens;
      if IsContentToken(tokens[0]) then
        assert Surfaces([tokens[0]] + Filter(tokens[1..], IsContentToken)) == [tokens[0].surface] + rest;
        [tokens[0].surface] + rest
      else
        SkipHead(rest, Surfaces(tokens));
        rest
  }

  /** The four comprehensions at app.py:308-315, one after another. */
  function WordFilter(words: seq<string>): (kept: seq<string>)
    ensures kept == Filter(words, IsKeyword)
  {
    var longEnough := w => |w| > 1;
    var notTwoHiragana := w => !IsTwoHiragana(w);
    var notKanjiHiragana := w => !IsKanjiThenHiragana(w);
    var notExcluded := w => w !in EXCLUDED_WORDS;
    var r1 := Filter(words, longEnough);
    var r2 := Filter(r1, notTwoHiragana);
    var r3 := Filter(r2, notKanjiHiragana);
    var r4 := Filter(r3, notExcluded);
    var c2 := w => |w| > 1 && !IsTwoHiragana(w);
    var c3 := w => |w| > 1 && !IsTwoHiragana(w) && !IsKanjiThenHiragana(w);
    FilterFilter(words, longEnough, notTwoHiragana, c2);
    FilterFilter(words, c2, notKanjiHiragana, c3);
    FilterFilter(words, c3, notExcluded, IsKeyword);
    r4
  }

  /** The keywords handed to the word cloud, from the analyser's tokens. */
  function Keywords(tokens: seq<Token>): (words: seq<string>)
    ensures words == Filter(Surfaces(Filter(tokens, IsContentToken)), IsKeyword)
    ensures IsSubsequence(words, Surfaces(tokens))
    ensures forall w | w in words :: IsKeyword(w)
    ensures forall w | w in words :: exists t | t in tokens :: IsContentToken(t) && t.surface == w
  {
    var content := ContentSurfaces(tokens);
    FilterIsSubsequence(content, IsKeyword);
    SubsequenceTransitive(WordFilter(content), content, Surfaces(tokens));
    FilterMembers(content, IsKeyword);
    WordFilter(content)
  }

  /** Running the word filter on its own output changes nothing. */
  lemma WordFilterIdempotent(words: seq<string>)
    ensures WordFilter(WordFilter(words)) == WordFilter(words)
  {
    FilterIdempotent(words, IsKeyword);
  }

  /** Every noun or verb token whose surface passes the word filters yields a keyword. */
  lemma KeywordsComplete(tokens: seq<Token>, t: Token)
    requires t in tokens
    requires IsContentToken(t) && IsKeyword(t.surface)
    ensures t.surface in Keywords(tokens)
  {
    ContentSurfacesComplete(tokens, t);
    FilterMembers(ContentSurfaces(tokens), IsKeyword);
  }

  lemma {:induction false} ContentSurfacesComplete(tokens: seq<Token>, t: Token)
    requires t in tokens && IsContentToken(t)
    ensures t.surface in ContentSurfaces(tokens)
    decreases |tokens|
  {
    if tokens[0] != t {
      ContentSurfacesComplete(tokens[1..], t);
    }
  }
}

=== FILE: organizer_label.dfy ===
/** The organizer drop-down: each organizer is shown as `Name【Code】`, and the selected
    label is turned back into a code with `label.split('【')[-1].replace('】', '')`. */
module OrganizerLabel {
  import opened Wrappers
  import opened Seqs
  import opened Text

  const OPEN: char := '【'
  const CLOSE: char := '】'

  datatype Organizer = Organizer(name: string, code: string)

  /** A code the label format can carry: it contains neither bracket. */
  predicate IsPlainCode(code: string)
  {
    OPEN !in code && CLOSE !in code
  }

  /** `f"{row['Organizer_Name']}【{row['Organizer_Code']}】"`. */
  function Format(o: Organizer): (shown: string)
    ensures |shown| == |o.name| + |o.code| + 2
    ensures shown[..|o.name|] == o.name
    ensures shown[|o.name|] == OPEN && shown[|shown| - 1] == CLOSE
  {
    o.name + [OPEN] + o.code + [CLOSE]
  }

  /** `organizer_keyword.split('【')[-1].replace('】', '')`. */
  function Parse(labelText: string): (code: string)
    ensures IsPlainCode(code)
    ensures IsPlainCode(labelText) ==> code == labelText
    ensures IsSubsequence(code, labelText)
  {
    var tail := AfterLast(labelText, OPEN);
    SuffixIsSubsequence(labelText, |labelText| - |tail|);
    SubsequenceTransitive(RemoveChar(tail, CLOSE), tail, labelText);
    RemoveChar(tail, CLOSE)
  }

  /** A suffix is a subsequence. */
  lemma {:induction false} SuffixIsSubsequence(s: string, k: nat)
    requires k <= |s|
    ensures IsSubsequence(s[k..], s)
    decreases k
  {
    if k == 0 {
      assert s[k..] == s;
      SubsequenceReflexive(s);
    } else {
      SuffixIsSubsequence(s[1..], k - 1);
      assert s[1..][k - 1..] == s[k..];
      SkipHead(s[k..], s);
    }
  }

  lemma {:induction false} SubsequenceReflexive(s: string)
    ensures IsSubsequence(s, s)
    decreases |s|
  {
    if s != [] {
      SubsequenceReflexive(s[1..]);
    }
  }

  /** The part after the last `c` of `a + [c] + b` is `b` when `b` holds no `c`. */
  lemma {:induction false} AfterLastMarker(a: string, c: char, b: string)
    requires c !in b
    ensures AfterLast(a + [c] + b, c) == b
    decreases |b|
  {
    var s := a + [c] + b;
    if b != [] {
      var b' := b[..|b| - 1];
      assert s[..|s| - 1] == a + [c] + b';
      AfterLastMarker(a, c, b');
      assert b == b' + [b[|b| - 1]];
    }
  }

  /** Parsing a formatted label gives back the organizer's code, whatever the name. */
  lemma ParseFormat(o: Organizer)
    requires IsPlainCode(o.code)
    ensures Parse(Format(o)) == o.code
  {
    var tail := o.code + [CLOSE];
    assert Format(o) == o.name + [OPEN] + tail;
    AfterLastMarker(o.name, OPEN, tail);
    var keep := x => x != CLOSE;
    FilterAppend(o.code, [CLOSE], keep);
    FilterAllPass(o.code, keep);
  }

  /** The choices the drop-down offers staff: a blank entry, then every organizer. */
  function Choices(organizers: seq<Organizer>): (labels: seq<string>)
    ensures |labels| == |organizers| + 1
    ensures labels[0] == ""
    ensures forall i | 0 <= i < |organizers| :: labels[i + 1] == Format(organizers[i])
  {
    [""] + seq(|organizers|, i requires 0 <= i < |organizers| => Format(organizers[i]))
  }

  /** The organizer code behind the chosen entry (app.py:104-105). */
  function ChosenCode(organizers: seq<Organizer>, choice: nat): (code: string)
    requires choice <= |organizers|
    ensures choice == 0 ==> code == ""
    ensures choice > 0 && IsPlainCode(organizers[choice - 1].code) ==> code == organizers[choice - 1].code
  {
    assert choice > 0 && IsPlainCode(organizers[choice - 1].code) ==>
        Parse(Format(organizers[choice - 1])) == organizers[choice - 1].code by {
      if choice > 0 && IsPlainCode(organizers[choice - 1].code) {
        ParseFormat(organizers[choice - 1]);
      }
    }
    Parse(Choices(organizers)[choice])
  }

  /** A member company sees only its own organizer: the first label the lookup returns,
      or nothing when the lookup is empty (the error branch at app.py:120-122). */
  function GroupOrganizerCode(organizers: seq<Organizer>): (code: Option<string>)
    ensures code.None? <==> organizers == []
    ensures organizers != [] && IsPlainCode(organizers[0].code) ==> code == Some(organizers[0].code)
  {
    if organizers == [] then None
    else
      assert IsPlainCode(organizers[0].code) ==> Parse(Format(organizers[0])) == organizers[0].code by {
        if IsPlainCode(organizers[0].code) {
          ParseFormat(organizers[0]);
        }
      }
      Some(Parse(Format(organizers[0])))
  }
}

=== FILE: pipeline.dfy ===
/** The scoring run behind the "実行" button: candidate companies, their seminar rows,
    per-company totals, the stable ranking, the top five, and for each of them the
    other-seminar text for the word cloud (or the "no other-seminar history" case). */
module Pipeline {
  import opened Wrappers
  import opened Rows
  import opened Scoring
  import opened Aggregation
  import opened Ranking
  import opened CrossSeminar
  import opened Candidates
  import opened Seqs
  import opened Text

  /** One detail block of the "トップ5企業" section. */
  datatype Lead = Lead(rank: nat, company: string, total: nat, corpus: Option<string>)

  /** How a run ends: no candidate company (app.py:238-240), no scored company
      (app.py:298-300), or the ranked leads. */
  datatype Outcome = NoCandidates | NoScoredCompanies | Ranked(leads: seq<Lead>)

  /** Sorting does not duplicate a company. */
  lemma RankKeepsCompaniesDistinct(t: seq<CompanyScore>)
    requires NoDuplicates(Keys(t))
    ensures NoDuplicates(Keys(Rank(t)))
  {
    PermutationKeepsDistinct(t, Rank(t));
  }

  /** A rearrangement of entries with distinct companies has distinct companies. */
  lemma PermutationKeepsDistinct(t: seq<CompanyScore>, r: seq<CompanyScore>)
    requires NoDuplicates(Keys(t))
    requires multiset(r) == multiset(t)
    ensures NoDuplicates(Keys(r))
  {
    forall i, j | 0 <= i < j < |r|
      ensures r[i].company != r[j].company
    {
      if r[i].company == r[j].company {
        assert r[i] in multiset(r) && r[j] in multiset(r);
        SameCompanySameEntry(t, r[i], r[j]);
        TwoPositions(r, i, j);
        MultiplicityAtMostOne(t, r[i]);
      }
    }
  }

  /** Two entries of `t` with the same company are the same entry. */
  lemma SameCompanySameEntry(t: seq<CompanyScore>, e: CompanyScore, f: CompanyScore)
    requires NoDuplicates(Keys(t))
    requires e in t && f in t && e.company == f.company
    ensures e == f
  {
    var a :| 0 <= a < |t| && t[a] == e;
    var b :| 0 <= b < |t| && t[b] == f;
    assert Keys(t)[a] == Keys(t)[b];
  }

  /** An element at two positions occurs at least twice. */
  lemma TwoPositions(r: seq<CompanyScore>, i: nat, j: nat)
    requires i < j < |r| && r[i] == r[j]
    ensures multiset(r)[r[i]] >= 2
  {
    assert r == r[..i] + [r[i]] + r[i + 1..j] + [r[j]] + r[j + 1..];
  }

  /** In a sequence without repeated keys, no entry occurs twice. */
  lemma {:induction false} MultiplicityAtMostOne(t: seq<CompanyScore>, e: CompanyScore)
    requires NoDuplicates(Keys(t))
    ensures multiset(t)[e] <= 1
    decreases |t|
  {
    if t != [] {
      assert t == [t[0]] + t[1..];
      assert NoDuplicates(Keys(t[1..])) by {
        forall i, j | 0 <= i < j < |t[1..]| ensures Keys(t[1..])[i] != Keys(t[1..])[j] {
          assert Keys(t)[i + 1] == Keys(t[1..])[i] && Keys(t)[j + 1] == Keys(t[1..])[j];
        }
      }
      MultiplicityAtMostOne(t[1..], e);
      if t[0] == e {
        assert e !in t[1..] by {
          forall k | 0 <= k < |t[1..]| ensures t[1..][k] != e {
            assert Keys(t)[k + 1] == t[1..][k].company;
            assert Keys(t)[0] == e.company;
          }
        }
      }
    }
  }

  /** The detail blocks for the selected top entries, numbered from 1. */
  function Details(rows: seq<Row>, organizerCode: string, top: seq<CompanyScore>): (leads: seq<Lead>)
    ensures |leads| == |top|
    ensures forall i | 0 <= i < |top| ::
      leads[i] == Lead(i + 1, top[i].company, top[i].total, Corpus(rows, top[i].company, organizerCode))
  {
    seq(|top|, i requires 0 <= i < |top| =>
      Lead(i + 1, top[i].company, top[i].total, Corpus(rows, top[i].company, organizerCode)))
  }

  /** The leads reported for the candidates' rows: the top five of the stable ranking of
      the per-company totals, each with its other-seminar text. */
  function LeadsOf(rows: seq<Row>, organizerCode: string): (leads: seq<Lead>)
    ensures |leads| <= TOP_N
    ensures forall i | 0 <= i < |leads| :: leads[i].rank == i + 1
  {
    Details(rows, organizerCode, TopN(Rank(Aggregate(rows)), TOP_N))
  }

  /** Each lead is numbered from 1 and names a company of the rows with its full total;
      its corpus is that company's other-seminar text, missing exactly when every row of
      that company comes from the current organizer. At most five leads, and none only
      when there are no rows. */
  ghost predicate LeadsDescribeRows(rows: seq<Row>, organizerCode: string, leads: seq<Lead>)
  {
    && |leads| <= TOP_N
    && (leads == [] <==> rows == [])
    && forall i | 0 <= i < |leads| ::
         && leads[i].rank == i + 1
         && leads[i].company in CompanyNames(rows)
         && leads[i].total == CompanyTotal(rows, leads[i].company)
         && leads[i].corpus == Corpus(rows, leads[i].company, organizerCode)
         && (leads[i].corpus.None? <==>
               forall k | 0 <= k < |rows| :: rows[k].companyName == leads[i].company ==> rows[k].organizerCode == Some(organizerCode))
  }

  /** Totals never increase down the list and no company appears twice. */
  ghost predicate LeadsRanked(leads: seq<Lead>)
  {
    forall i, j | 0 <= i < j < |leads| :: leads[i].total >= leads[j].total && leads[i].company != leads[j].company
  }

  /** `lead` ranks above `c`: a higher total, or an equal total and a company that
      appears earlier in the rows. */
  ghost predicate Outranks(rows: seq<Row>, lead: Lead, c: string)
  {
    || lead.total > CompanyTotal(rows, c)
    || (lead.total == CompanyTotal(rows, c)
        && FirstIndex(CompanyNames(rows), lead.company) < FirstIndex(CompanyNames(rows), c))
  }

  /** Every company of the rows has a lead, or there are five leads and each of them
      outranks that company. */
  ghost predicate LeadsCover(rows: seq<Row>, leads: seq<Lead>)
  {
    forall c | c in CompanyNames(rows) ::
      (exists i | 0 <= i < |leads| :: leads[i].company == c)
      || (|leads| == TOP_N && forall i | 0 <= i < |leads| :: Outranks(rows, leads[i], c))
  }

  /** What the report promises: at most five leads, numbered from 1, distinct companies
      of the rows with their full totals in non-increasing order, a missing corpus exactly
      for companies seen only at the current organizer and the other-seminar text
      otherwise, and every company left out outranked by all five leads, ties going to
      the company seen first. */
  lemma LeadsOfReport(rows: seq<Row>, organizerCode: string)
    ensures LeadsDescribeRows(rows, organizerCode, LeadsOf(rows, organizerCode))
    ensures LeadsRanked(LeadsOf(rows, organizerCode))
    ensures LeadsCover(rows, LeadsOf(rows, organizerCode))
  {
    var totals := Aggregate(rows);
    AggregateIsTally(rows);
    var ranked := Rank(totals);
    var top := TopN(ranked, TOP_N);
    var leads := Details(rows, organizerCode, top);
    assert leads == LeadsOf(rows, organizerCode);
    DescribeRows(rows, organizerCode, totals, ranked, top, leads);
    RankedLeads(totals, ranked, top, rows, organizerCode, leads);
    Coverage(rows, totals, ranked, top, leads, organizerCode);
  }

  lemma DescribeRows(rows: seq<Row>, organizerCode: string, totals: seq<CompanyScore>, ranked: seq<CompanyScore>,
                     top: seq<CompanyScore>, leads: seq<Lead>)
    requires IsTally(rows, totals) && ranked == Rank(totals) && top == TopN(ranked, TOP_N)
    requires leads == Details(rows, organizerCode, top)
    ensures LeadsDescribeRows(rows, organizerCode, leads)
  {
    LeadFacts(rows, totals, ranked, top);
  }

  lemma RankedLeads(totals: seq<CompanyScore>, ranked: seq<CompanyScore>, top: seq<CompanyScore>,
                    rows: seq<Row>, organizerCode: string, leads: seq<Lead>)
    requires NoDuplicates(Keys(totals)) && ranked == Rank(totals) && top == TopN(ranked, TOP_N)
    requires leads == Details(rows, organizerCode, top)
    ensures LeadsRanked(leads)
  {
    RankKeepsCompaniesDistinct(totals);
    forall i, j | 0 <= i < j < |leads|
      ensures leads[i].total >= leads[j].total && leads[i].company != leads[j].company
    {
      assert top[i] == ranked[i] && top[j] == ranked[j];
    }
  }

  /** Leads with equal totals are listed in the order their companies first appear in
      the rows: the dictionary keeps first-insertion order and the sort is stable. */
  lemma TiedLeadsInFirstSeenOrder(rows: seq<Row>, organizerCode: string)
    ensures var leads := LeadsOf(rows, organizerCode);
      forall i, j | 0 <= i < j < |leads| && leads[i].total == leads[j].total ::
        FirstIndex(CompanyNames(rows), leads[i].company) < FirstIndex(CompanyNames(rows), leads[j].company)
  {
    var totals := Aggregate(rows);
    AggregateIsTally(rows);
    var ranked := Rank(totals);
    var top := TopN(ranked, TOP_N);
    var leads := Details(rows, organizerCode, top);
    assert leads == LeadsOf(rows, organizerCode);
    forall i, j | 0 <= i < j < |leads| && leads[i].total == leads[j].total
      ensures FirstIndex(CompanyNames(rows), leads[i].company) < FirstIndex(CompanyNames(rows), leads[j].company)
    {
      assert top[i] == ranked[i] && top[j] == ranked[j];
      TieOrder(rows, totals, i, j);
    }
  }

  lemma TieOrder(rows: seq<Row>, totals: seq<CompanyScore>, i: nat, j: nat)
    requires IsTally(rows, totals)
    requires i < j < |Rank(totals)| && Rank(totals)[i].total == Rank(totals)[j].total
    ensures FirstIndex(CompanyNames(rows), Rank(totals)[i].company) < FirstIndex(CompanyNames(rows), Rank(totals)[j].company)
  {
    RankKeepsTieOrder(totals, i, j);
    var a, b :| 0 <= a < b < |totals| && totals[a] == Rank(totals)[i] && totals[b] == Rank(totals)[j];
  }

  /** Every top entry is a company of the rows with its total. */
  lemma LeadFacts(rows: seq<Row>, totals: seq<CompanyScore>, ranked: seq<CompanyScore>, top: seq<CompanyScore>)
    requires IsTally(rows, totals) && ranked == Rank(totals) && top == TopN(ranked, TOP_N)
    ensures top == [] <==> rows == []
    ensures forall i | 0 <= i < |top| ::
      top[i].company in CompanyNames(rows) && top[i].total == CompanyTotal(rows, top[i].company)
  {
    forall i | 0 <= i < |top|
      ensures top[i].company in CompanyNames(rows) && top[i].total == CompanyTotal(rows, top[i].company)
    {
      assert top[i] == ranked[i];
      TallyEntry(rows, totals, ranked[i]);
    }
    assert |ranked| == |totals| by {
      assert |ranked| == |multiset(ranked)| == |multiset(totals)| == |totals|;
    }
    assert totals == [] <==> rows == [] by {
      if rows != [] {
        assert rows[0].companyName in CompanyNames(rows);
        assert rows[0].companyName in Keys(totals);
      }
    }
  }

  /** Every entry of a tally is a company of the rows with its total. */
  lemma TallyEntry(rows: seq<Row>, totals: seq<CompanyScore>, e: CompanyScore)
    requires IsTally(rows, totals)
    requires e in multiset(totals)
    ensures e.company in CompanyNames(rows) && e.total == CompanyTotal(rows, e.company)
  {
    var k :| 0 <= k < |totals| && totals[k] == e;
    assert Keys(totals)[k] == e.company;
  }

  /** A company without a lead is outranked by all five leads. */
  lemma Coverage(rows: seq<Row>, totals: seq<CompanyScore>, ranked: seq<CompanyScore>, top: seq<CompanyScore>,
                 leads: seq<Lead>, organizerCode: string)
    requires IsTally(rows, totals) && ranked == Rank(totals) && top == TopN(ranked, TOP_N)
    requires leads == Details(rows, organizerCode, top)
    ensures LeadsCover(rows, leads)
  {
    forall c | c in CompanyNames(rows)
      ensures (exists i | 0 <= i < |leads| :: leads[i].company == c)
        || (|leads| == TOP_N && forall i | 0 <= i < |leads| :: Outranks(rows, leads[i], c))
    {
      assert c in Keys(totals);
      var k :| 0 <= k < |totals| && Keys(totals)[k] == c;
      var e := totals[k];
      assert e in multiset(ranked);
      var j :| 0 <= j < |ranked| && ranked[j] == e;
      if j < |top| {
        assert leads[j].company == c;
      } else {
        LeftOutOutranked(rows, totals, leads, organizerCode, j);
      }
    }
  }

  /** The entry at position `j`, past the cut, is outranked by every lead. */
  lemma LeftOutOutranked(rows: seq<Row>, totals: seq<CompanyScore>, leads: seq<Lead>, organizerCode: string, j: nat)
    requires IsTally(rows, totals)
    requires leads == Details(rows, organizerCode, TopN(Rank(totals), TOP_N))
    requires |leads| <= j < |Rank(totals)|
    ensures |leads| == TOP_N
    ensures forall i | 0 <= i < |leads| :: Outranks(rows, leads[i], Rank(totals)[j].company)
  {
    var ranked := Rank(totals);
    var top := TopN(ranked, TOP_N);
    TallyEntry(rows, totals, ranked[j]);
    forall i | 0 <= i < |leads|
      ensures Outranks(rows, leads[i], ranked[j].company)
    {
      assert top[i] == ranked[i];
      assert leads[i].company == ranked[i].company && leads[i].total == ranked[i].total;
      CutOutranks(rows, totals, i, j);
    }
  }

  /** In the ranking of a tally, an earlier entry has a higher total, or an equal total
      and a company seen earlier in the rows. */
  lemma CutOutranks(rows: seq<Row>, totals: seq<CompanyScore>, i: nat, j: nat)
    requires IsTally(rows, totals)
    requires i < j < |Rank(totals)|
    ensures || Rank(totals)[i].total > Rank(totals)[j].total
            || (Rank(totals)[i].total == Rank(totals)[j].total
                && FirstIndex(CompanyNames(rows), Rank(totals)[i].company)
                   < FirstIndex(CompanyNames(rows), Rank(totals)[j].company))
  {
    if Rank(totals)[i].total == Rank(totals)[j].total {
      TieOrder(rows, totals, i, j);
    }
  }

  /** One press of the button, on the attendee query's company names and the warehouse
      rows inside the lookback window. The rows are selected as the code is
      written, through the escaped names (`SelectedRowsAsWritten`). */
  function Run(attendeeNames: seq<Option<string>>, warehouseRows: seq<Row>, organizerCode: string): (o: Outcome)
    ensures o.NoCandidates? <==> CandidateCompanies(attendeeNames) == {}
    ensures o.NoScoredCompanies? <==>
      CandidateCompanies(attendeeNames) != {} && SelectedRowsAsWritten(warehouseRows, CandidateCompanies(attendeeNames)) == []
    ensures o.Ranked? ==>
      o.leads != [] && o.leads == LeadsOf(SelectedRowsAsWritten(warehouseRows, CandidateCompanies(attendeeNames)), organizerCode)
  {
    LeadsOfReport(SelectedRowsAsWritten(warehouseRows, CandidateCompanies(attendeeNames)), organizerCode);
    var companies := CandidateCompanies(attendeeNames);
    if companies == {} then NoCandidates
    else
      var leads := LeadsOf(SelectedRowsAsWritten(warehouseRows, companies), organizerCode);
      if leads == [] then NoScoredCompanies else Ranked(leads)
  }

  /** The same run with the names passed unescaped (`SelectedRows`), as a bound array
      parameter needs: every row of every candidate company is scored. */
  function RunCorrected(attendeeNames: seq<Option<string>>, warehouseRows: seq<Row>, organizerCode: string): (o: Outcome)
    ensures o.NoCandidates? <==> CandidateCompanies(attendeeNames) == {}
    ensures o.NoScoredCompanies? <==>
      CandidateCompanies(attendeeNames) != {} && SelectedRows(warehouseRows, CandidateCompanies(attendeeNames)) == []
    ensures o.Ranked? ==>
      o.leads != [] && o.leads == LeadsOf(SelectedRows(warehouseRows, CandidateCompanies(attendeeNames)), organizerCode)
  {
    LeadsOfReport(SelectedRows(warehouseRows, CandidateCompanies(attendeeNames)), organizerCode);
    var companies := CandidateCompanies(attendeeNames);
    if companies == {} then NoCandidates
    else
      var leads := LeadsOf(SelectedRows(warehouseRows, companies), organizerCode);
      if leads == [] then NoScoredCompanies else Ranked(leads)
  }

  /** When no candidate name contains an apostrophe, the run as written and the
      corrected run end the same way. */
  lemma RunAgreesWithoutQuotes(attendeeNames: seq<Option<string>>, warehouseRows: seq<Row>, organizerCode: string)
    requires forall c | c in CandidateCompanies(attendeeNames) :: QUOTE !in c
    ensures Run(attendeeNames, warehouseRows, organizerCode) == RunCorrected(attendeeNames, warehouseRows, organizerCode)
  {
    AsWrittenAgreesWithoutQuotes(warehouseRows, CandidateCompanies(attendeeNames));
  }

  /** The candidate "A'B" with one attended row: as written the run stops with "no scored
      companies", while the corrected run ranks the company. */
  lemma QuotedNameStopsRun(row: Row, organizerCode: string)
    requires row.companyName == "A'B"
    ensures Run([Some("A'B")], [row], organizerCode) == NoScoredCompanies
    ensures RunCorrected([Some("A'B")], [row], organizerCode).Ranked?
  {
    assert CandidateCompanies([Some("A'B")]) == {"A'B"};
    AsWrittenDropsQuotedName(row);
  }

  /** One company with two rows: a current-organizer row worth 3 and another
      organizer's row worth 2. With the corrected selection, whatever the company's name,
      it becomes the single lead, with total 5, and only the other organizer's title
      reaches keyword extraction. */
  lemma TwoRowScenario(own: Row, other: Row, organizerCode: string)
    requires own.companyName == other.companyName != ""
    requires own.organizerCode == Some(organizerCode) != other.organizerCode
    requires Score(own) == 3 && Score(other) == 2
    ensures RunCorrected([Some(own.companyName)], [own, other], organizerCode)
         == Ranked([Lead(1, own.companyName, 5, Some(other.seminarTitle))])
  {
    TwoRowLeads(own, other, organizerCode);
    TwoRowSelected(own, other);
  }

  lemma TwoRowSelected(own: Row, other: Row)
    requires own.companyName == other.companyName != ""
    ensures CandidateCompanies([Some(own.companyName)]) == {own.companyName}
    ensures SelectedRows([own, other], {own.companyName}) == [own, other]
  {
    assert CandidateCompanies([Some(own.companyName)]) == {own.companyName};
  }

  lemma TwoRowLeads(own: Row, other: Row, organizerCode: string)
    requires own.companyName == other.companyName
    requires own.organizerCode == Some(organizerCode) != other.organizerCode
    requires Score(own) == 3 && Score(other) == 2
    ensures LeadsOf([own, other], organizerCode) == [Lead(1, own.companyName, 5, Some(other.seminarTitle))]
  {
    var totals := [CompanyScore(own.companyName, 5)];
    TwoRowTotals(own, other);
    SingleRanked(totals);
    TwoRowCorpus(own, other, organizerCode);
  }

  lemma SingleRanked(totals: seq<CompanyScore>)
    requires |totals| == 1
    ensures TopN(Rank(totals), TOP_N) == totals
  {
    assert Rank(totals) == totals;
  }

  lemma TwoRowTotals(own: Row, other: Row)
    requires own.companyName == other.companyName
    requires Score(own) == 3 && Score(other) == 2
    ensures Aggregate([own, other]) == [CompanyScore(own.companyName, 5)]
  {
    var c := own.companyName;
    ScoredPair(own, other);
    TallySameCompany(c, 3, 2);
  }

  lemma ScoredPair(a: Row, b: Row)
    ensures Scored([a, b]) == [CompanyScore(a.companyName, Score(a)), CompanyScore(b.companyName, Score(b))]
  {
  }

  lemma TallySameCompany(c: string, a: nat, b: nat)
    ensures Tally([CompanyScore(c, a), CompanyScore(c, b)]) == [CompanyScore(c, a + b)]
  {
    var entries := [CompanyScore(c, a), CompanyScore(c, b)];
    assert entries[..1] == [CompanyScore(c, a)];
    assert [CompanyScore(c, a)][..0] == [];
    assert Tally(entries[..1]) == [CompanyScore(c, a)];
    assert Keys([CompanyScore(c, a)]) == [c];
  }

  lemma TwoRowCorpus(own: Row, other: Row, organizerCode: string)
    requires own.companyName == other.companyName
    requires own.organizerCode == Some(organizerCode) != other.organizerCode
    ensures Corpus([own, other], own.companyName, organizerCode) == Some(other.seminarTitle)
  {
    var p := OtherSeminarTest(own.companyName, organizerCode);
    FilterCons(other, [], p);
    FilterCons(own, [other], p);
    assert OtherSeminars([own, other], own.companyName, organizerCode) == [other];
    assert Titles([other]) == [other.seminarTitle];
  }

  /** The row "attended, nothing else". */
  function AttendedRow(company: string, organizerCode: string, title: string): Row
  {
    Row(company, Some(organizerCode), title, Some(ATTENDED), None, None, None, None, None)
  }

  /** A no-show whose pre-seminar answer says it is searching for candidate products. */
  function SearchingRow(company: string, organizerCode: string, title: string): Row
  {
    Row(company, Some(organizerCode), title, Some("欠席"), None, None, None, None, Some(INTENT_RULES[2].phrase))
  }

  /** Attendance alone scores 3, "searching for candidates" alone scores 2. */
  lemma ScenarioScores(company: string, ownCode: string, otherCode: string, ownTitle: string, otherTitle: string)
    ensures Score(AttendedRow(company, ownCode, ownTitle)) == 3
    ensures Score(SearchingRow(company, otherCode, otherTitle)) == 2
  {
    AttendanceOnlyScoresThree(AttendedRow(company, ownCode, ownTitle));
    var answer := INTENT_RULES[2].phrase;
    IntentPriority(answer);
    TooLongNotContained(INTENT_RULES[0].phrase, answer);
    TooLongNotContained(INTENT_RULES[1].phrase, answer);
    ContainsSelf(answer);
  }

  /** A single non-empty attendee name is the only candidate. */
  lemma SingleCandidate(name: string)
    requires name != ""
    ensures CandidateCompanies([Some(name)]) == {name}
  {
    assert forall c :: c in CandidateCompanies([Some(name)]) <==> c == name;
  }

  /** "Acme" attended a seminar of organizer A and, at organizer B, answered that it is
      searching for candidate products: with A current, Acme is the only lead, total
      3 + 2 = 5, and its keyword text is the title of B's seminar alone. The name has no
      apostrophe, so the run as written gives this result too. */
  lemma AcmeScenario(ownTitle: string, otherTitle: string)
    ensures Run([Some("Acme")], [AttendedRow("Acme", "A", ownTitle), SearchingRow("Acme", "B", otherTitle)], "A")
         == Ranked([Lead(1, "Acme", 5, Some(otherTitle))])
  {
    assert QUOTE !in "Acme";
    SingleCandidate("Acme");
    var own, other := AttendedRow("Acme", "A", ownTitle), SearchingRow("Acme", "B", otherTitle);
    ScenarioScores("Acme", "A", "B", ownTitle, otherTitle);
    RunAgreesWithoutQuotes([Some("Acme")], [own, other], "A");
    TwoRowScenario(own, other, "A");
  }
}

=== FILE: query_params.dfy ===
/** The demographic filter of the attendee query (app.py:171-218): which named query
    parameters are bound, and which `LIKE` condition uses each of them. The SQL text
    itself is rendered by string formatting and is not modelled beyond this structure. */
module QueryParams {
  import opened Text

  /** The industry checkbox that stands for several warehouse values. */
  const IT_GROUP: string := "IT関連企業"

  /** `it_industry_values`. */
  const IT_INDUSTRY_VALUES: seq<string> := [
    "システム・インテグレータ",
    "IT・ビジネスコンサルティング",
    "IT関連製品販売",
    "SaaS・Webサービス事業",
    "その他ITサービス関連"
  ]

  const INDUSTRY_PREFIX: string := "industry_"
  const EMPLOYEE_SIZE_PREFIX: string := "employee_size_"
  const POSITION_PREFIX: string := "position_"
  const ORGANIZER_PARAM: string := "organizer_code"

  const INDUSTRY_COLUMN: string := "User_Company"
  const EMPLOYEE_SIZE_COLUMN: string := "Employee_Size"
  const POSITION_COLUMN: string := "Position_Category"

  /** A named STRING query parameter. */
  datatype Param = Param(name: string, value: string)

  /** `column LIKE '%' || @param || '%'`. */
  datatype Like = Like(column: string, param: string)

  /** The warehouse values one chosen industry stands for. */
  function Expand(industry: string): (values: seq<string>)
    ensures |values| >= 1
  {
    if industry == IT_GROUP then IT_INDUSTRY_VALUES else [industry]
  }

  /** All search values for the chosen industries, in checkbox order. */
  function IndustryValues(selected: seq<string>): (values: seq<string>)
    ensures |values| == |selected| + 4 * multiset(selected)[IT_GROUP]
    ensures IT_GROUP !in selected ==> values == selected
  {
    if selected == [] then []
    else
      var rest := IndustryValues(selected[1..]);
      assert selected == [selected[0]] + selected[1..];
      Expand(selected[0]) + rest
  }

  /** A value is searched for exactly when it is a chosen industry other than the IT
      group, or one of the five IT values while the IT group is chosen. */
  lemma {:induction false} IndustryValuesMembers(selected: seq<string>)
    ensures forall v | v in IndustryValues(selected) ::
      (v in selected && v != IT_GROUP) || (IT_GROUP in selected && v in IT_INDUSTRY_VALUES)
    ensures forall v | v in selected && v != IT_GROUP :: v in IndustryValues(selected)
    ensures IT_GROUP in selected ==> forall v | v in IT_INDUSTRY_VALUES :: v in IndustryValues(selected)
    decreases |selected|
  {
    if selected != [] {
      IndustryValuesMembers(selected[1..]);
      assert IndustryValues(selected) == Expand(selected[0]) + IndustryValues(selected[1..]);
      assert forall v | v in selected :: v == selected[0] || v in selected[1..];
    }
  }

  /** The checkboxes contribute their values one after another: together with the single
      ones (`Expand`) this fixes every search value and its position. */
  lemma {:induction false} IndustryValuesAppend(a: seq<string>, b: seq<string>)
    ensures IndustryValues(a + b) == IndustryValues(a) + IndustryValues(b)
    decreases |a|
  {
    if a == [] {
      assert a + b == b;
    } else {
      assert (a + b)[1..] == a[1..] + b;
      IndustryValuesAppend(a[1..], b);
    }
  }

  /** One checkbox stands for the values `Expand` gives it: "IT関連企業" for the five IT
      values in order, any other industry for itself. */
  lemma IndustryValuesSingle(industry: string)
    ensures IndustryValues([industry]) == Expand(industry)
    ensures industry == IT_GROUP ==> IndustryValues([industry]) == IT_INDUSTRY_VALUES
    ensures industry != IT_GROUP ==> IndustryValues([industry]) == [industry]
  {
    assert [industry][1..] == [];
  }

  /** `prefix + str(start + i)` bound to `values[i]`, for every `i`. */
  function Numbered(prefix: string, values: seq<string>, start: nat): (params: seq<Param>)
  {
    seq(|values|, i requires 0 <= i < |values| => Param(prefix + Decimal(start + i), values[i]))
  }

  /** The industry loop with its running `param_counter`, starting at `counter`. */
  function IndustryParams(selected: seq<string>, counter: nat): (params: seq<Param>)
    ensures |params| == |IndustryValues(selected)|
    ensures forall i | 0 <= i < |params| ::
      params[i] == Param(INDUSTRY_PREFIX + Decimal(counter + i), IndustryValues(selected)[i])
  {
    if selected == [] then []
    else
      var head := Numbered(INDUSTRY_PREFIX, Expand(selected[0]), counter);
      var rest := IndustryParams(selected[1..], counter + |head|);
      NumberedThenRest(INDUSTRY_PREFIX, Expand(selected[0]), IndustryValues(selected[1..]), counter, rest);
      assert IndustryValues(selected) == Expand(selected[0]) + IndustryValues(selected[1..]);
      head + rest
  }

  /** Numbering one block of values and then the next block from where the first one
      stopped numbers the two blocks together. */
  lemma NumberedThenRest(prefix: string, first: seq<string>, second: seq<string>, counter: nat, rest: seq<Param>)
    requires |rest| == |second|
    requires forall i | 0 <= i < |rest| :: rest[i] == Param(prefix + Decimal(counter + |first| + i), second[i])
    ensures |Numbered(prefix, first, counter) + rest| == |first + second|
    ensures forall i | 0 <= i < |first + second| ::
      (Numbered(prefix, first, counter) + rest)[i] == Param(prefix + Decimal(counter + i), (first + second)[i])
  {
    var all := Numbered(prefix, first, counter) + rest;
    forall i | 0 <= i < |first + second|
      ensures all[i] == Param(prefix + Decimal(counter + i), (first + second)[i])
    {
      if i >= |first| {
        assert all[i] == rest[i - |first|];
        assert (first + second)[i] == second[i - |first|];
      }
    }
  }

  /** From position `offset` on, `params` binds `prefix + str(k)` to `values[k]`, for every `k`. */
  predicate BoundFrom(params: seq<Param>, offset: nat, prefix: string, values: seq<string>)
  {
    && offset + |values| <= |params|
    && forall k | 0 <= k < |values| :: params[offset + k] == Param(prefix + Decimal(k), values[k])
  }

  /** `query_parameters` as sent with the attendee query. */
  function QueryParameters(industries: seq<string>, sizes: seq<string>, positions: seq<string>,
                           organizerCode: string): (params: seq<Param>)
    ensures |params| == |IndustryValues(industries)| + |sizes| + |positions| + 1
    ensures BoundFrom(params, 0, INDUSTRY_PREFIX, IndustryValues(industries))
    ensures BoundFrom(params, |IndustryValues(industries)|, EMPLOYEE_SIZE_PREFIX, sizes)
    ensures BoundFrom(params, |IndustryValues(industries)| + |sizes|, POSITION_PREFIX, positions)
    ensures params[|params| - 1] == Param(ORGANIZER_PARAM, organizerCode)
  {
    var ip := IndustryParams(industries, 0);
    var sp := Numbered(EMPLOYEE_SIZE_PREFIX, sizes, 0);
    var pp := Numbered(POSITION_PREFIX, positions, 0);
    var last := [Param(ORGANIZER_PARAM, organizerCode)];
    assert BoundFrom(ip, 0, INDUSTRY_PREFIX, IndustryValues(industries));
    assert BoundFrom(sp, 0, EMPLOYEE_SIZE_PREFIX, sizes);
    assert BoundFrom(pp, 0, POSITION_PREFIX, positions);
    BoundInBlocks(ip, sp, pp, last, INDUSTRY_PREFIX, IndustryValues(industries),
                  EMPLOYEE_SIZE_PREFIX, sizes, POSITION_PREFIX, positions);
    ip + sp + pp + last
  }

  /** Blocks bound from their own start stay bound, shifted, inside the concatenation. */
  lemma BoundInBlocks(a: seq<Param>, b: seq<Param>, c: seq<Param>, d: seq<Param>,
                      pa: string, va: seq<string>, pb: string, vb: seq<string>, pc: string, vc: seq<string>)
    requires |a| == |va| && |b| == |vb| && |c| == |vc|
    requires BoundFrom(a, 0, pa, va) && BoundFrom(b, 0, pb, vb) && BoundFrom(c, 0, pc, vc)
    ensures BoundFrom(a + b + c + d, 0, pa, va)
    ensures BoundFrom(a + b + c + d, |a|, pb, vb)
    ensures BoundFrom(a + b + c + d, |a| + |b|, pc, vc)
  {
    var all := a + b + c + d;
    forall k | 0 <= k < |vb|
      ensures all[|a| + k] == Param(pb + Decimal(k), vb[k])
    {
      assert all[|a| + k] == b[k];
    }
    forall k | 0 <= k < |vc|
      ensures all[|a| + |b| + k] == Param(pc + Decimal(k), vc[k])
    {
      assert all[|a| + |b| + k] == c[k];
    }
  }

  /** One `LIKE` per parameter, on `column`. */
  function LikeEach(column: string, params: seq<Param>): (conditions: seq<Like>)
  {
    seq(|params|, i requires 0 <= i < |params| => Like(column, params[i].name))
  }

  /** `additional_conditions`: one OR-group per non-empty selection, in the order
      industry, employee size, position; the groups are AND-ed to the organizer filter. */
  function AdditionalConditions(industries: seq<string>, sizes: seq<string>, positions: seq<string>): (groups: seq<seq<Like>>)
    ensures |groups| == (if industries == [] then 0 else 1) + (if sizes == [] then 0 else 1) + (if positions == [] then 0 else 1)
    ensures forall g | g in groups :: g != []
  {
    var a := if industries == [] then [] else [LikeEach(INDUSTRY_COLUMN, IndustryParams(industries, 0))];
    var b := if sizes == [] then [] else [LikeEach(EMPLOYEE_SIZE_COLUMN, Numbered(EMPLOYEE_SIZE_PREFIX, sizes, 0))];
    var c := if positions == [] then [] else [LikeEach(POSITION_COLUMN, Numbered(POSITION_PREFIX, positions, 0))];
    assert forall g | g in a + b + c :: g in a || g in b || g in c;
    a + b + c
  }

  function Flatten(groups: seq<seq<Like>>): seq<Like>
  {
    if groups == [] then [] else groups[0] + Flatten(groups[1..])
  }

  function Names(params: seq<Param>): (names: seq<string>)
  {
    seq(|params|, i requires 0 <= i < |params| => params[i].name)
  }

  function ConditionParams(conditions: seq<Like>): (names: seq<string>)
  {
    seq(|conditions|, i requires 0 <= i < |conditions| => conditions[i].param)
  }

  /** Every parameter but the organizer code is used by exactly the `LIKE` at the same
      position, and every `LIKE` uses a bound parameter. */
  lemma ConditionsUseParameters(industries: seq<string>, sizes: seq<string>, positions: seq<string>, organizerCode: string)
    ensures var params := QueryParameters(industries, sizes, positions, organizerCode);
      ConditionParams(Flatten(AdditionalConditions(industries, sizes, positions))) == Names(params[..|params| - 1])
  {
    var ip := IndustryParams(industries, 0);
    var sp := Numbered(EMPLOYEE_SIZE_PREFIX, sizes, 0);
    var pp := Numbered(POSITION_PREFIX, positions, 0);
    var params := QueryParameters(industries, sizes, positions, organizerCode);
    assert params[..|params| - 1] == ip + sp + pp;
    assert industries == [] ==> ip == [];
    GroupsUseParams(industries != [], sizes != [], positions != [], ip, sp, pp);
  }

  lemma GroupsUseParams(hasI: bool, hasS: bool, hasP: bool, ip: seq<Param>, sp: seq<Param>, pp: seq<Param>)
    requires !hasI ==> ip == []
    requires !hasS ==> sp == []
    requires !hasP ==> pp == []
    ensures ConditionParams(Flatten(
        (if hasI then [LikeEach(INDUSTRY_COLUMN, ip)] else [])
      + (if hasS then [LikeEach(EMPLOYEE_SIZE_COLUMN, sp)] else [])
      + (if hasP then [LikeEach(POSITION_COLUMN, pp)] else []))) == Names(ip + sp + pp)
  {
    var gi := if hasI then [LikeEach(INDUSTRY_COLUMN, ip)] else [];
    var gs := if hasS then [LikeEach(EMPLOYEE_SIZE_COLUMN, sp)] else [];
    var gp := if hasP then [LikeEach(POSITION_COLUMN, pp)] else [];
    var fi, fs, fp := Flatten(gi), Flatten(gs), Flatten(gp);
    assert Flatten(gi + gs + gp) == fi + fs + fp by {
      FlattenAppend(gi + gs, gp);
      FlattenAppend(gi, gs);
    }
    assert ConditionParams(fi + fs + fp) == ConditionParams(fi) + ConditionParams(fs) + ConditionParams(fp) by {
      ConditionParamsAppend(fi + fs, fp);
      ConditionParamsAppend(fi, fs);
    }
    GroupParams(hasI, INDUSTRY_COLUMN, ip);
    GroupParams(hasS, EMPLOYEE_SIZE_COLUMN, sp);
    GroupParams(hasP, POSITION_COLUMN, pp);
    NamesAppend(ip + sp, pp);
    NamesAppend(ip, sp);
  }

  lemma NamesAppend(a: seq<Param>, b: seq<Param>)
    ensures Names(a + b) == Names(a) + Names(b)
  {
  }

  /** The parameters named by an optional OR-group are those of its selection. */
  lemma GroupParams(present: bool, column: string, params: seq<Param>)
    requires !present ==> params == []
    ensures ConditionParams(Flatten(if present then [LikeEach(column, params)] else [])) == Names(params)
  {
    if present {
      assert Flatten([LikeEach(column, params)]) == LikeEach(column, params) + Flatten([]);
    }
  }

  lemma ConditionParamsAppend(a: seq<Like>, b: seq<Like>)
    ensures ConditionParams(a + b) == ConditionParams(a) + ConditionParams(b)
  {
  }

  lemma {:induction false} FlattenAppend(a: seq<seq<Like>>, b: seq<seq<Like>>)
    ensures Flatten(a + b) == Flatten(a) + Flatten(b)
    decreases |a|
  {
    if a == [] {
      assert a + b == b;
    } else {
      assert (a + b)[1..] == a[1..] + b;
      FlattenAppend(a[1..], b);
    }
  }

  /** Names built from one prefix and distinct counters are distinct. */
  lemma NumberedNamesDiffer(prefix: string, m: nat, n: nat)
    requires m != n
    ensures prefix + Decimal(m) != prefix + Decimal(n)
  {
    if prefix + Decimal(m) == prefix + Decimal(n) {
      assert (prefix + Decimal(m))[|prefix|..] == Decimal(m);
      assert (prefix + Decimal(n))[|prefix|..] == Decimal(n);
      DecimalInjective(m, n);
    }
  }

  /** No two parameters of the attendee query share a name: the industry counter runs on
      across the expanded IT values, and the four name families differ in their first letter. */
  lemma ParameterNamesDistinct(industries: seq<string>, sizes: seq<string>, positions: seq<string>, organizerCode: string)
    ensures var params := QueryParameters(industries, sizes, positions, organizerCode);
      forall i, j | 0 <= i < j < |params| :: params[i].name != params[j].name
  {
    var ip := IndustryParams(industries, 0);
    var sp := Numbered(EMPLOYEE_SIZE_PREFIX, sizes, 0);
    var pp := Numbered(POSITION_PREFIX, positions, 0);
    assert forall k | 0 <= k < |ip| :: ip[k].name == INDUSTRY_PREFIX + Decimal(k);
    FamiliesDistinct(ip, sp, pp, organizerCode);
  }

  /** The name-distinctness argument on the four families of parameters. */
  lemma FamiliesDistinct(ip: seq<Param>, sp: seq<Param>, pp: seq<Param>, organizerCode: string)
    requires forall k | 0 <= k < |ip| :: ip[k].name == INDUSTRY_PREFIX + Decimal(k)
    requires forall k | 0 <= k < |sp| :: sp[k].name == EMPLOYEE_SIZE_PREFIX + Decimal(k)
    requires forall k | 0 <= k < |pp| :: pp[k].name == POSITION_PREFIX + Decimal(k)
    ensures var params := ip + sp + pp + [Param(ORGANIZER_PARAM, organizerCode)];
      forall i, j | 0 <= i < j < |params| :: params[i].name != params[j].name
  {
    var params := ip + sp + pp + [Param(ORGANIZER_PARAM, organizerCode)];
    forall i, j | 0 <= i < j < |params|
      ensures params[i].name != params[j].name
    {
      var fa := Family(ip, sp, pp, i);
      var fb := Family(ip, sp, pp, j);
      assert params[i].name[0] == FamilyInitial(fa) by { FamilyName(ip, sp, pp, organizerCode, i); }
      assert params[j].name[0] == FamilyInitial(fb) by { FamilyName(ip, sp, pp, organizerCode, j); }
      if fa == fb {
        if fa == 0 {
          NumberedNamesDiffer(INDUSTRY_PREFIX, i, j);
        } else if fa == 1 {
          NumberedNamesDiffer(EMPLOYEE_SIZE_PREFIX, i - |ip|, j - |ip|);
        } else if fa == 2 {
          NumberedNamesDiffer(POSITION_PREFIX, i - |ip| - |sp|, j - |ip| - |sp|);
        }
      }
    }
  }

  /** A parameter's name starts with the letter of its family. */
  lemma FamilyName(ip: seq<Param>, sp: seq<Param>, pp: seq<Param>, organizerCode: string, i: nat)
    requires forall k | 0 <= k < |ip| :: ip[k].name == INDUSTRY_PREFIX + Decimal(k)
    requires forall k | 0 <= k < |sp| :: sp[k].name == EMPLOYEE_SIZE_PREFIX + Decimal(k)
    requires forall k | 0 <= k < |pp| :: pp[k].name == POSITION_PREFIX + Decimal(k)
    requires i < |ip| + |sp| + |pp| + 1
    ensures var params := ip + sp + pp + [Param(ORGANIZER_PARAM, organizerCode)];
      params[i].name != [] && params[i].name[0] == FamilyInitial(Family(ip, sp, pp, i))
  {
  }

  /** Which of the four parameter families position `i` of the list falls in. */
  function Family(ip: seq<Param>, sp: seq<Param>, pp: seq<Param>, i: nat): nat
  {
    if i < |ip| then 0 else if i < |ip| + |sp| then 1 else if i < |ip| + |sp| + |pp| then 2 else 3
  }

  /** The first letter of the names in each family. */
  function FamilyInitial(f: nat): char
  {
    if f == 0 then 'i' else if f == 1 then 'e' else if f == 2 then 'p' else 'o'
  }
}

=== FILE: ranking.dfy ===
/** `sorted(company_scores.items(), key=lambda item: item[1], reverse=True)` and the
    top-N cut. Python's sort is stable even with `reverse=True`, so entries with equal
    totals keep their dictionary (first-seen) order. Modelled as an insertion sort. */
module Ranking {
  import opened Aggregation

  const TOP_N: nat := 5

  /** Totals never increase along `s`. */
  predicate SortedDescending(s: seq<CompanyScore>)
  {
    forall i, j | 0 <= i < j < |s| :: s[i].total >= s[j].total
  }

  /** The entries of `s` whose total is `v`, in order. Stability of a sort means that
      this subsequence is the same before and after sorting, for every `v`. */
  function WithTotal(s: seq<CompanyScore>, v: nat): (r: seq<CompanyScore>)
    ensures forall e :: e in r <==> e in s && e.total == v
  {
    if s == [] then []
    else if s[0].total == v then [s[0]] + WithTotal(s[1..], v)
    else WithTotal(s[1..], v)
  }

  /** Inserts `x` in front of the first entry whose total does not exceed its own. */
  function Insert(x: CompanyScore, s: seq<CompanyScore>): (r: seq<CompanyScore>)
    ensures multiset(r) == multiset(s) + multiset{x}
  {
    if s == [] || x.total >= s[0].total then [x] + s
    else
      assert s == [s[0]] + s[1..];
      [s[0]] + Insert(x, s[1..])
  }

  /** Insertion keeps a descending sequence descending. */
  lemma {:induction false} InsertSorted(x: CompanyScore, s: seq<CompanyScore>)
    requires SortedDescending(s)
    ensures SortedDescending(Insert(x, s))
    decreases |s|
  {
    if s != [] && x.total < s[0].total {
      var t := s[1..];
      InsertSorted(x, t);
      var rest := Insert(x, t);
      assert rest[0].total <= s[0].total by {
        if t != [] && x.total < t[0].total {
          assert rest[0] == t[0] == s[1];
        }
      }
      var r := [s[0]] + rest;
      assert Insert(x, s) == r;
      forall i, j | 0 <= i < j < |r|
        ensures r[i].total >= r[j].total
      {
        assert r[j] == rest[j - 1];
        if i > 0 {
          assert r[i] == rest[i - 1];
        } else if j > 1 {
          assert rest[0].total >= rest[j - 1].total;
        }
      }
    }
  }

  /** Insertion places `x` before every entry of equal total and leaves each equal-total
      group otherwise unchanged. */
  lemma {:induction false} InsertGroups(x: CompanyScore, s: seq<CompanyScore>, v: nat)
    ensures WithTotal(Insert(x, s), v) == if x.total == v then [x] + WithTotal(s, v) else WithTotal(s, v)
    decreases |s|
  {
    if s == [] || x.total >= s[0].total {
      assert ([x] + s)[1..] == s;
    } else {
      InsertGroups(x, s[1..], v);
      var rest := Insert(x, s[1..]);
      assert ([s[0]] + rest)[1..] == rest;
    }
  }

  /** The stable descending sort. */
  function Rank(s: seq<CompanyScore>): (r: seq<CompanyScore>)
    ensures SortedDescending(r)
    ensures multiset(r) == multiset(s)
    ensures forall v :: WithTotal(r, v) == WithTotal(s, v)
  {
    if s == [] then []
    else
      var rest := Rank(s[1..]);
      InsertSorted(s[0], rest);
      assert s == [s[0]] + s[1..];
      forall v ensures WithTotal(Insert(s[0], rest), v) == WithTotal(s, v) {
        InsertGroups(s[0], rest, v);
      }
      Insert(s[0], rest)
  }

  /** `sorted_scores[i]` for `i in range(min(n, len(sorted_scores)))`: a prefix of at most
      `n` entries, no padding, and none of the entries left out beats one kept. */
  function TopN(s: seq<CompanyScore>, n: nat): (r: seq<CompanyScore>)
    ensures |r| == if n <= |s| then n else |s|
    ensures r <= s
    ensures SortedDescending(s) ==> forall i, j | 0 <= i < |r| <= j < |s| :: r[i].total >= s[j].total
  {
    if n <= |s| then s[..n] else s
  }

  /** The sort is unique: any descending arrangement that keeps every equal-total group in
      input order is exactly `Rank`'s output. So ranking is reproducible, ties included. */
  lemma RankIsUnique(s: seq<CompanyScore>, other: seq<CompanyScore>)
    requires SortedDescending(other)
    requires forall v :: WithTotal(other, v) == WithTotal(s, v)
    ensures other == Rank(s)
  {
    StableSortedEqual(other, Rank(s));
  }

  /** Two descending sequences with the same equal-total groups are equal. */
  lemma {:induction false} StableSortedEqual(a: seq<CompanyScore>, b: seq<CompanyScore>)
    requires SortedDescending(a) && SortedDescending(b)
    requires forall v :: WithTotal(a, v) == WithTotal(b, v)
    ensures a == b
    decreases |a| + |b|
  {
    if a == [] {
      HeadInGroup(b);
    } else {
      HeadInGroup(a);
      assert a[0] in WithTotal(b, a[0].total);
      assert b != [];
      HeadInGroup(b);
      assert b[0] in WithTotal(a, b[0].total);
      var m := a[0].total;
      assert m == b[0].total;
      assert WithTotal(a, m)[0] == a[0];
      assert WithTotal(b, m)[0] == b[0];
      forall v
        ensures WithTotal(a[1..], v) == WithTotal(b[1..], v)
      {
        if v == m {
          assert WithTotal(a[1..], v) == WithTotal(a, v)[1..];
          assert WithTotal(b[1..], v) == WithTotal(b, v)[1..];
        } else {
          assert WithTotal(a[1..], v) == WithTotal(a, v);
          assert WithTotal(b[1..], v) == WithTotal(b, v);
        }
      }
      StableSortedEqual(a[1..], b[1..]);
      assert a == [a[0]] + a[1..];
      assert b == [b[0]] + b[1..];
    }
  }

  /** The first entry belongs to the group of its own total. */
  lemma HeadInGroup(s: seq<CompanyScore>)
    ensures s != [] ==> s[0] in WithTotal(s, s[0].total)
  {
  }

  /** Two companies with equal totals keep their first-seen order. */
  lemma TieKeepsFirstSeen(first: CompanyScore, second: CompanyScore)
    requires first.total == second.total
    ensures Rank([first, second]) == [first, second]
  {
    RankIsUnique([first, second], [first, second]);
  }

  /** `x` occurs at an earlier position of `s` than `y`. */
  ghost predicate Before(s: seq<CompanyScore>, x: CompanyScore, y: CompanyScore)
  {
    exists a, b | 0 <= a < b < |s| :: s[a] == x && s[b] == y
  }

  /** Stability in its usual form: two ranked entries with equal totals appear in the
      input in the same order. */
  lemma RankKeepsTieOrder(s: seq<CompanyScore>, i: nat, j: nat)
    requires i < j < |Rank(s)|
    requires Rank(s)[i].total == Rank(s)[j].total
    ensures Before(s, Rank(s)[i], Rank(s)[j])
  {
    var r := Rank(s);
    var v := r[i].total;
    GroupKeepsOrder(r, i, j);
    assert WithTotal(r, v) == WithTotal(s, v);
    GroupOrderInInput(s, v, r[i], r[j]);
  }

  /** Equal-total entries keep their order inside their group. */
  lemma {:induction false} GroupKeepsOrder(s: seq<CompanyScore>, i: nat, j: nat)
    requires i < j < |s| && s[i].total == s[j].total
    ensures Before(WithTotal(s, s[i].total), s[i], s[j])
    decreases |s|
  {
    var v := s[i].total;
    var rest := WithTotal(s[1..], v);
    assert s[1..][j - 1] == s[j];
    if i == 0 {
      assert WithTotal(s, v) == [s[0]] + rest;
      HeadBefore([s[0]] + rest, s[j]);
    } else {
      GroupKeepsOrder(s[1..], i - 1, j - 1);
      assert s[1..][i - 1] == s[i];
      if s[0].total == v {
        assert WithTotal(s, v) == [s[0]] + rest;
        BeforeInTail([s[0]] + rest, s[i], s[j]);
      }
    }
  }

  /** An order seen inside a group is an order of the input. */
  lemma {:induction false} GroupOrderInInput(s: seq<CompanyScore>, v: nat, x: CompanyScore, y: CompanyScore)
    requires Before(WithTotal(s, v), x, y)
    ensures Before(s, x, y)
    decreases |s|
  {
    var rest := WithTotal(s[1..], v);
    if s[0].total == v {
      assert WithTotal(s, v) == [s[0]] + rest;
      BeforeOfCons(s[0], rest, x, y);
      if Before(rest, x, y) {
        GroupOrderInInput(s[1..], v, x, y);
        BeforeInTail(s, x, y);
      } else {
        HeadBefore(s, y);
      }
    } else {
      assert WithTotal(s, v) == rest;
      GroupOrderInInput(s[1..], v, x, y);
      BeforeInTail(s, x, y);
    }
  }

  /** An order in `[h] + t` starts at the head or lies within `t`. */
  lemma BeforeOfCons(h: CompanyScore, t: seq<CompanyScore>, x: CompanyScore, y: CompanyScore)
    requires Before([h] + t, x, y)
    ensures Before(t, x, y) || (x == h && y in t)
  {
    var s := [h] + t;
    var a, b :| 0 <= a < b < |s| && s[a] == x && s[b] == y;
    assert s[b] == t[b - 1];
    if a > 0 {
      assert s[a] == t[a - 1];
    }
  }

  /** The head comes before every element of the tail. */
  lemma HeadBefore(s: seq<CompanyScore>, y: CompanyScore)
    requires s != [] && y in s[1..]
    ensures Before(s, s[0], y)
  {
    var b :| 0 <= b < |s[1..]| && s[1..][b] == y;
    assert s[b + 1] == y;
  }

  /** An order in the tail is an order of the whole sequence. */
  lemma BeforeInTail(s: seq<CompanyScore>, x: CompanyScore, y: CompanyScore)
    requires s != [] && Before(s[1..], x, y)
    ensures Before(s, x, y)
  {
    var a, b :| 0 <= a < b < |s[1..]| && s[1..][a] == x && s[1..][b] == y;
    assert s[a + 1] == x && s[b + 1] == y;
  }
}

=== FILE: rows.dfy ===
/** The attendance record the scoring page reads from the warehouse: one row per
    (company, seminar) pairing, with the columns that may be NULL or missing as options. */
module Rows {
  import opened Wrappers

  datatype Row = Row(
    companyName: string,
    organizerCode: Option<string>,
    seminarTitle: string,
    status: Option<string>,
    surveyAnswer1: Option<string>,
    surveyAnswer2: Option<string>,
    surveyAnswer3: Option<string>,
    followUpActions: Option<string>,
    preSurveyAnswer2: Option<string>)

  /** Python truthiness of an optional text column: present and not the empty string. */
  predicate IsFilled(o: Option<string>)
  {
    o.Some? && o.value != ""
  }

  /** The `Company_Name` column of every row, in row order. */
  function CompanyNames(rows: seq<Row>): (names: seq<string>)
    ensures |names| == |rows|
    ensures forall i | 0 <= i < |rows| :: names[i] == rows[i].companyName
  {
    seq(|rows|, i requires 0 <= i < |rows| => rows[i].companyName)
  }
}

=== FILE: scoring.dfy ===
/** The per-row lead score (`calculate_score`): four independent categories that add up,
    two of which are ordered phrase tables where the first matching phrase wins. */
module Scoring {
  import opened Wrappers
  import opened Text
  import opened Rows

  /** A phrase looked for as a substring of a free-text answer, and the points it earns. */
  datatype Rule = Rule(phrase: string, points: nat)

  const ATTENDED: string := "出席"
  const ATTENDANCE_POINTS: nat := 3
  const SURVEY_POINTS: nat := 3

  /** `Desired_Follow_Up_Actions`, in priority order. */
  const FOLLOW_UP_RULES: seq<Rule> := [
    Rule("製品やサービス導入に関する具体的な要望がある", 5),
    Rule("資料希望", 3)
  ]

  /** `Pre_Seminar_Survey_Answer_2` (stage of the purchase decision), in priority order. */
  const INTENT_RULES: seq<Rule> := [
    Rule("既に同様の商品・サービスを導入済み", 3),
    Rule("既に候補の製品・サービスを絞っており、その評価・選定をしている", 3),
    Rule("製品・サービスの候補を探している", 2),
    Rule("導入するかどうか社内で検討中", 1)
  ]

  /** Rule `k` matches `text` and no earlier rule does. */
  ghost predicate IsFirstMatch(rules: seq<Rule>, text: string, k: int)
  {
    && 0 <= k < |rules|
    && Contains(rules[k].phrase, text)
    && forall j | 0 <= j < k :: !Contains(rules[j].phrase, text)
  }

  /** No rule matches `text`. */
  ghost predicate NoMatch(rules: seq<Rule>, text: string)
  {
    forall j | 0 <= j < |rules| :: !Contains(rules[j].phrase, text)
  }

  /** Index of the first rule at or after `from` whose phrase occurs in `text`. */
  function FirstMatchFrom(rules: seq<Rule>, text: string, from: nat): (r: Option<nat>)
    requires from <= |rules|
    requires forall j | 0 <= j < from :: !Contains(rules[j].phrase, text)
    ensures r.Some? ==> IsFirstMatch(rules, text, r.value)
    ensures r.None? ==> NoMatch(rules, text)
    decreases |rules| - from
  {
    if from == |rules| then None
    else if Contains(rules[from].phrase, text) then Some(from)
    else FirstMatchFrom(rules, text, from + 1)
  }

  /** The highest number of points any rule of the table awards. */
  function MaxPoints(rules: seq<Rule>): (m: nat)
    ensures forall j | 0 <= j < |rules| :: rules[j].points <= m
    ensures rules != [] ==> exists j | 0 <= j < |rules| :: rules[j].points == m
  {
    if rules == [] then 0
    else
      var rest := MaxPoints(rules[1..]);
      assert forall j | 1 <= j < |rules| :: rules[j] == rules[1..][j - 1];
      if rules[0].points >= rest then rules[0].points else rest
  }

  /** Points of one first-match-wins category: an absent or empty answer, or an answer
      matching no phrase, earns nothing; otherwise the first matching phrase decides. */
  function CategoryPoints(rules: seq<Rule>, answer: Option<string>): (p: nat)
    ensures p <= MaxPoints(rules)
    ensures p > 0 ==> IsFilled(answer)
    ensures IsFilled(answer) && NoMatch(rules, answer.value) ==> p == 0
  {
    if !IsFilled(answer) then 0
    else
      match FirstMatchFrom(rules, answer.value, 0)
      case Some(k) => rules[k].points
      case None => 0
  }

  /** The category awards the points of the first matching phrase, never more than the
      table's maximum, and nothing for an empty answer or one matching no phrase. */
  lemma CategoryPointsFirstMatch(rules: seq<Rule>, answer: Option<string>)
    ensures CategoryPoints(rules, answer) <= MaxPoints(rules)
    ensures IsFilled(answer) ==>
      forall k | IsFirstMatch(rules, answer.value, k) :: CategoryPoints(rules, answer) == rules[k].points
    ensures !IsFilled(answer) || NoMatch(rules, answer.value) ==> CategoryPoints(rules, answer) == 0
  {
    if IsFilled(answer) {
      var m := FirstMatchFrom(rules, answer.value, 0);
      if m.Some? {
        assert forall k | IsFirstMatch(rules, answer.value, k) :: k == m.value;
      }
    }
  }

  predicate Attended(row: Row)
  {
    row.status == Some(ATTENDED)
  }

  /** Any of `Post_Seminar_Survey_Answer_1..3` is filled in. */
  predicate AnsweredSurvey(row: Row)
  {
    IsFilled(row.surveyAnswer1) || IsFilled(row.surveyAnswer2) || IsFilled(row.surveyAnswer3)
  }

  /** The table maxima: at most 5 follow-up points and 3 intent points. */
  lemma TableMaxima()
    ensures MaxPoints(FOLLOW_UP_RULES) == 5
    ensures MaxPoints(INTENT_RULES) == 3
  {
    assert FOLLOW_UP_RULES[1..] == [FOLLOW_UP_RULES[1]];
    assert INTENT_RULES[1..][1..][1..] == [INTENT_RULES[3]];
  }

  /** `calculate_score`: the lead score of one attendance row. */
  function Score(row: Row): (s: nat)
    ensures s <= ATTENDANCE_POINTS + SURVEY_POINTS + MaxPoints(FOLLOW_UP_RULES) + MaxPoints(INTENT_RULES)
  {
    (if Attended(row) then ATTENDANCE_POINTS else 0)
    + (if AnsweredSurvey(row) then SURVEY_POINTS else 0)
    + CategoryPoints(FOLLOW_UP_RULES, row.followUpActions)
    + CategoryPoints(INTENT_RULES, row.preSurveyAnswer2)
  }

  /** A score is at most 3 + 3 + 5 + 3 = 14, and attendance or a survey answer each
      guarantee at least 3. */
  lemma ScoreBounds(row: Row)
    ensures Score(row) <= ATTENDANCE_POINTS + SURVEY_POINTS + 5 + 3
    ensures Attended(row) ==> Score(row) >= ATTENDANCE_POINTS
    ensures AnsweredSurvey(row) ==> Score(row) >= SURVEY_POINTS
  {
    TableMaxima();
    CategoryPointsFirstMatch(FOLLOW_UP_RULES, row.followUpActions);
    CategoryPointsFirstMatch(INTENT_RULES, row.preSurveyAnswer2);
  }

  /** The follow-up table behaves exactly like the source's `if`/`elif` chain: a text
      holding both phrases earns 5, never 5 + 3. */
  lemma FollowUpPriority(text: string)
    ensures CategoryPoints(FOLLOW_UP_RULES, Some(text)) ==
      if Contains(FOLLOW_UP_RULES[0].phrase, text) then 5
      else if Contains(FOLLOW_UP_RULES[1].phrase, text) then 3
      else 0
  {
    var rules := FOLLOW_UP_RULES;
    CategoryPointsFirstMatch(rules, Some(text));
    if Contains(rules[0].phrase, text) {
      assert IsFirstMatch(rules, text, 0);
    } else if Contains(rules[1].phrase, text) {
      assert IsFirstMatch(rules, text, 1);
    } else {
      assert NoMatch(rules, text);
    }
  }

  /** The intent table behaves exactly like the source's four-way `if`/`elif` chain. */
  lemma IntentPriority(text: string)
    ensures CategoryPoints(INTENT_RULES, Some(text)) ==
      if Contains(INTENT_RULES[0].phrase, text) then 3
      else if Contains(INTENT_RULES[1].phrase, text) then 3
      else if Contains(INTENT_RULES[2].phrase, text) then 2
      else if Contains(INTENT_RULES[3].phrase, text) then 1
      else 0
  {
    var rules := INTENT_RULES;
    CategoryPointsFirstMatch(rules, Some(text));
    if Contains(rules[0].phrase, text) {
      assert IsFirstMatch(rules, text, 0);
    } else if Contains(rules[1].phrase, text) {
      assert IsFirstMatch(rules, text, 1);
    } else if Contains(rules[2].phrase, text) {
      assert IsFirstMatch(rules, text, 2);
    } else if Contains(rules[3].phrase, text) {
      assert IsFirstMatch(rules, text, 3);
    } else {
      assert NoMatch(rules, text);
    }
  }

  /** `calculate_score` as the source writes it: four independent tests, the last two
      being `if`/`elif` chains over the phrases, without the rule tables. */
  function ScoreBySteps(row: Row): nat
  {
    var follow := row.followUpActions;
    var intent := row.preSurveyAnswer2;
    (if row.status == Some(ATTENDED) then 3 else 0)
    + (if IsFilled(row.surveyAnswer1) || IsFilled(row.surveyAnswer2) || IsFilled(row.surveyAnswer3) then 3 else 0)
    + (if !IsFilled(follow) then 0
       else if Contains(FOLLOW_UP_RULES[0].phrase, follow.value) then 5
       else if Contains(FOLLOW_UP_RULES[1].phrase, follow.value) then 3
       else 0)
    + (if !IsFilled(intent) then 0
       else if Contains(INTENT_RULES[0].phrase, intent.value) then 3
       else if Contains(INTENT_RULES[1].phrase, intent.value) then 3
       else if Contains(INTENT_RULES[2].phrase, intent.value) then 2
       else if Contains(INTENT_RULES[3].phrase, intent.value) then 1
       else 0)
  }

  /** The table-driven score agrees with the source's chain of tests on every row. */
  lemma ScoreMatchesSource(row: Row)
    ensures Score(row) == ScoreBySteps(row)
  {
    var follow, intent := row.followUpActions, row.preSurveyAnswer2;
    if IsFilled(follow) {
      FollowUpPriority(follow.value);
    }
    if IsFilled(intent) {
      IntentPriority(intent.value);
    }
    assert CategoryPoints(FOLLOW_UP_RULES, follow) ==
      if !IsFilled(follow) then 0
      else if Contains(FOLLOW_UP_RULES[0].phrase, follow.value) then 5
      else if Contains(FOLLOW_UP_RULES[1].phrase, follow.value) then 3
      else 0;
  }

  /** No survey, follow-up or intent signal at all. */
  predicate NoOtherSignal(row: Row)
  {
    && !AnsweredSurvey(row)
    && !IsFilled(row.followUpActions)
    && !IsFilled(row.preSurveyAnswer2)
  }

  /** A row that only says the person attended scores exactly 3. */
  lemma AttendanceOnlyScoresThree(row: Row)
    requires Attended(row) && NoOtherSignal(row)
    ensures Score(row) == 3
  {
  }

  /** A row with another status and no other signal scores 0. */
  lemma NoSignalScoresZero(row: Row)
    requires !Attended(row) && NoOtherSignal(row)
    ensures Score(row) == 0
  {
  }

  /** Attendance is independent of the other categories: it adds exactly 3. */
  lemma AttendanceAddsThree(row: Row, other: Option<string>)
    requires other != Some(ATTENDED)
    ensures Score(row.(status := Some(ATTENDED))) == Score(row.(status := other)) + ATTENDANCE_POINTS
  {
  }

  /** Answering the post-seminar survey adds exactly 3, however many answers are given. */
  lemma SurveyAddsThree(row: Row, answer: string)
    requires answer != ""
    requires !AnsweredSurvey(row)
    ensures Score(row.(surveyAnswer1 := Some(answer))) == Score(row) + SURVEY_POINTS
    ensures Score(row.(surveyAnswer1 := Some(answer), surveyAnswer2 := Some(answer), surveyAnswer3 := Some(answer)))
         == Score(row) + SURVEY_POINTS
  {
  }
}

=== FILE: seqs.dfy ===
/** Order-preserving filtering of sequences, the shape of a Python list comprehension
    `[x for x in xs if p(x)]`. */
module Seqs {

  /** Keeps the elements of `s` that satisfy `p`, in their original order. */
  function Filter<T(!new)>(s: seq<T>, p: T -> bool): (r: seq<T>)
    ensures |r| <= |s|
    ensures forall i | 0 <= i < |r| :: p(r[i])
  {
    if s == [] then []
    else
      var rest := Filter(s[1..], p);
      if p(s[0]) then [s[0]] + rest else rest
  }

  /** An element survives the filter exactly when it occurs in the input and passes. */
  lemma {:induction false} FilterMembers<T(!new)>(s: seq<T>, p: T -> bool)
    ensures forall x :: x in Filter(s, p) <==> x in s && p(x)
    decreases |s|
  {
    if s != [] {
      FilterMembers(s[1..], p);
      assert s == [s[0]] + s[1..];
    }
  }

  /** The filter keeps every passing element as often as it occurs, and nothing else. */
  lemma {:induction false} FilterMultiset<T(!new)>(s: seq<T>, p: T -> bool)
    ensures forall x :: multiset(Filter(s, p))[x] == if p(x) then multiset(s)[x] else 0
    decreases |s|
  {
    if s != [] {
      FilterMultiset(s[1..], p);
      assert s == [s[0]] + s[1..];
    }
  }

  /** Filtering a sequence with a known first element. */
  lemma FilterCons<T(!new)>(x: T, s: seq<T>, p: T -> bool)
    ensures Filter([x] + s, p) == if p(x) then [x] + Filter(s, p) else Filter(s, p)
  {
    assert ([x] + s)[1..] == s;
  }

  /** Filtering distributes over concatenation. */
  lemma {:induction false} FilterAppend<T(!new)>(a: seq<T>, b: seq<T>, p: T -> bool)
    ensures Filter(a + b, p) == Filter(a, p) + Filter(b, p)
    decreases |a|
  {
    if a == [] {
      assert a + b == b;
    } else {
      assert (a + b)[1..] == a[1..] + b;
      FilterAppend(a[1..], b, p);
    }
  }

  /** `a` can be obtained from `b` by deleting elements (order is kept). */
  predicate IsSubsequence<T(==)>(a: seq<T>, b: seq<T>)
    decreases |b|
  {
    if a == [] then true
    else if b == [] then false
    else if a[0] == b[0] then IsSubsequence(a[1..], b[1..])
    else IsSubsequence(a, b[1..])
  }

  lemma {:induction false} FilterIsSubsequence<T(!new)>(s: seq<T>, p: T -> bool)
    ensures IsSubsequence(Filter(s, p), s)
    decreases |s|
  {
    if s != [] {
      FilterIsSubsequence(s[1..], p);
      var rest := Filter(s[1..], p);
      if !p(s[0]) {
        SkipHead(rest, s);
      }
    }
  }

  /** A subsequence of the tail is a subsequence of the whole. */
  lemma {:induction false} SkipHead<T>(a: seq<T>, b: seq<T>)
    requires b != []
    requires IsSubsequence(a, b[1..])
    ensures IsSubsequence(a, b)
    decreases |b|, 0
  {
    if a != [] && a[0] == b[0] {
      // the greedy match takes b[0]; a[1..] is still a subsequence of b[1..]
      DropHead(a, b[1..]);
    }
  }

  /** Dropping the first element of a subsequence keeps it a subsequence. */
  lemma {:induction false} DropHead<T>(a: seq<T>, b: seq<T>)
    requires a != []
    requires IsSubsequence(a, b)
    ensures IsSubsequence(a[1..], b)
    decreases |b|, 1
  {
    assert b != [];
    if a[0] == b[0] {
      if a[1..] != [] {
        SkipHead(a[1..], b);
      }
    } else {
      DropHead(a, b[1..]);
      if a[1..] != [] {
        SkipHead(a[1..], b);
      }
    }
  }

  /** Filtering by `p` and then by `q` is filtering by their conjunction `pq`. */
  lemma {:induction false} FilterFilter<T(!new)>(s: seq<T>, p: T -> bool, q: T -> bool, pq: T -> bool)
    requires forall x :: pq(x) == (p(x) && q(x))
    ensures Filter(Filter(s, p), q) == Filter(s, pq)
    decreases |s|
  {
    if s != [] {
      FilterFilter(s[1..], p, q, pq);
      var rest := Filter(s[1..], p);
      if p(s[0]) {
        assert Filter(s, p) == [s[0]] + rest;
        assert ([s[0]] + rest)[1..] == rest;
      }
    }
  }

  /** A filter changes nothing on a sequence whose every element passes it. */
  lemma {:induction false} FilterAllPass<T(!new)>(s: seq<T>, p: T -> bool)
    requires forall i | 0 <= i < |s| :: p(s[i])
    ensures Filter(s, p) == s
    decreases |s|
  {
    if s != [] {
      FilterAllPass(s[1..], p);
    }
  }

  /** Applying the same filter twice is applying it once. */
  lemma FilterIdempotent<T(!new)>(s: seq<T>, p: T -> bool)
    ensures Filter(Filter(s, p), p) == Filter(s, p)
  {
    FilterAllPass(Filter(s, p), p);
  }

  /** A subsequence of a subsequence is a subsequence. */
  lemma {:induction false} SubsequenceTransitive<T>(a: seq<T>, b: seq<T>, c: seq<T>)
    requires IsSubsequence(a, b) && IsSubsequence(b, c)
    ensures IsSubsequence(a, c)
    decreases |c|
  {
    if a != [] {
      assert b != [] && c != [];
      if b[0] == c[0] {
        if a[0] == b[0] {
          SubsequenceTransitive(a[1..], b[1..], c[1..]);
        } else {
          SubsequenceTransitive(a, b[1..], c[1..]);
          SkipHead(a, c);
        }
      } else {
        SubsequenceTransitive(a, b, c[1..]);
        SkipHead(a, c);
      }
    }
  }

  /** Filters with the same condition, however written, agree. */
  lemma {:induction false} FilterExtensional<T(!new)>(s: seq<T>, p: T -> bool, q: T -> bool)
    requires forall x :: p(x) == q(x)
    ensures Filter(s, p) == Filter(s, q)
    decreases |s|
  {
    if s != [] {
      FilterExtensional(s[1..], p, q);
    }
  }
}

=== FILE: text.dfy ===
/** String operations the scoring page relies on, stated over `seq<char>`:
    substring search (Python's `needle in hay`), `split(c)[0]`, `split(c)[-1]`,
    `replace(c, '')`, `sep.join(parts)` and decimal rendering of a counter. */
module Text {
  import Seqs

  /** `needle` occurs in `hay` as a contiguous block. The empty needle occurs everywhere. */
  predicate Contains(needle: string, hay: string)
    decreases |hay|
  {
    needle <= hay || (hay != [] && Contains(needle, hay[1..]))
  }

  /** `needle` starts at position `i` of `hay`. */
  ghost predicate OccursAt(needle: string, hay: string, i: int)
  {
    0 <= i <= |hay| - |needle| && hay[i..i + |needle|] == needle
  }

  /** The recursive search agrees with the positional definition of a substring. */
  lemma {:induction false} ContainsIffOccurs(needle: string, hay: string)
    ensures Contains(needle, hay) <==> exists i :: OccursAt(needle, hay, i)
    decreases |hay|
  {
    if hay != [] {
      ContainsIffOccurs(needle, hay[1..]);
      if needle <= hay {
        assert OccursAt(needle, hay, 0);
      }
      if Contains(needle, hay[1..]) {
        var j :| OccursAt(needle, hay[1..], j);
        assert hay[j + 1..j + 1 + |needle|] == hay[1..][j..j + |needle|];
        assert OccursAt(needle, hay, j + 1);
      }
      if i :| OccursAt(needle, hay, i) {
        if i == 0 {
          assert needle <= hay;
        } else {
          assert hay[1..][i - 1..i - 1 + |needle|] == hay[i..i + |needle|];
          assert OccursAt(needle, hay[1..], i - 1);
        }
      }
    } else if needle == [] {
      assert OccursAt(needle, hay, 0);
    }
  }

  /** A needle longer than the haystack never occurs in it. */
  lemma {:induction false} TooLongNotContained(needle: string, hay: string)
    requires |needle| > |hay|
    ensures !Contains(needle, hay)
    decreases |hay|
  {
    if hay != [] {
      TooLongNotContained(needle, hay[1..]);
    }
  }

  /** Every string contains itself. */
  lemma ContainsSelf(s: string)
    ensures Contains(s, s)
  {
  }

  /** An occurrence in `b` is an occurrence in `a + b`. */
  lemma {:induction false} ContainsInSuffix(x: string, a: string, b: string)
    requires Contains(x, b)
    ensures Contains(x, a + b)
    decreases |a|
  {
    if a == [] {
      assert a + b == b;
    } else {
      assert (a + b)[1..] == a[1..] + b;
      ContainsInSuffix(x, a[1..], b);
    }
  }

  /** An occurrence in `a` is an occurrence in `a + b`. */
  lemma {:induction false} ContainsInPrefix(x: string, a: string, b: string)
    requires Contains(x, a)
    ensures Contains(x, a + b)
    decreases |a|
  {
    if x <= a {
      assert x <= a + b;
    } else {
      assert a != [] && Contains(x, a[1..]);
      assert (a + b)[1..] == a[1..] + b;
      ContainsInPrefix(x, a[1..], b);
    }
  }

  /** Python's `s.split(c)[0]`: the part of `s` before the first `c`, or all of `s`. */
  function BeforeFirst(s: string, c: char): (r: string)
    ensures r <= s
    ensures c !in r
    ensures |r| < |s| ==> s[|r|] == c
    ensures c !in s ==> r == s
  {
    if s == [] then []
    else if s[0] == c then []
    else [s[0]] + BeforeFirst(s[1..], c)
  }

  /** Python's `s.split(c)[-1]`: the part of `s` after the last `c`, or all of `s`. */
  function AfterLast(s: string, c: char): (r: string)
    ensures |r| <= |s| && s[|s| - |r|..] == r
    ensures c !in r
    ensures c in s ==> |r| < |s| && s[|s| - |r| - 1] == c
    ensures c !in s ==> r == s
  {
    if s == [] then []
    else if s[|s| - 1] == c then []
    else AfterLast(s[..|s| - 1], c) + [s[|s| - 1]]
  }

  /** Python's `s.replace(c, '')`: `s` with every `c` deleted. */
  function RemoveChar(s: string, c: char): (r: string)
    ensures forall x :: x in r <==> x in s && x != c
    ensures forall x :: x != c ==> multiset(r)[x] == multiset(s)[x]
    ensures Seqs.IsSubsequence(r, s)
    ensures c !in s ==> r == s
  {
    var keep := x => x != c;
    assert c !in s ==> Seqs.Filter(s, keep) == s by {
      if c !in s {
        Seqs.FilterAllPass(s, keep);
      }
    }
    Seqs.FilterIsSubsequence(s, keep);
    Seqs.FilterMembers(s, keep);
    Seqs.FilterMultiset(s, keep);
    Seqs.Filter(s, keep)
  }

  /** Python's `sep.join(parts)`: the parts in order, with `sep` between neighbours. */
  function Join(parts: seq<string>, sep: string): (r: string)
    ensures parts == [] ==> r == ""
    ensures |parts| == 1 ==> r == parts[0]
    ensures |parts| > 0 ==> |r| == TotalLength(parts) + (|parts| - 1) * |sep|
    ensures forall i | 0 <= i < |parts| :: Contains(parts[i], r)
  {
    if parts == [] then ""
    else if |parts| == 1 then
      ContainsSelf(parts[0]);
      parts[0]
    else
      var init := Join(parts[..|parts| - 1], sep);
      var last := parts[|parts| - 1];
      var r := init + sep + last;
      forall i | 0 <= i < |parts|
        ensures Contains(parts[i], r)
      {
        if i < |parts| - 1 {
          assert parts[..|parts| - 1][i] == parts[i];
          ContainsInPrefix(parts[i], init, sep + last);
          assert init + (sep + last) == r;
        } else {
          ContainsSelf(last);
          ContainsInSuffix(last, init + sep, last);
        }
      }
      assert TotalLength(parts) == TotalLength(parts[..|parts| - 1]) + |last|;
      r
  }

  /** `sep.join` puts the first part in front, then `sep`, then the join of the rest:
      together with the empty and single-part cases this fixes the joined text. */
  lemma {:induction false} JoinFront(parts: seq<string>, sep: string)
    requires |parts| > 1
    ensures Join(parts, sep) == parts[0] + sep + Join(parts[1..], sep)
    decreases |parts|
  {
    var front := parts[..|parts| - 1];
    var last := parts[|parts| - 1];
    var restFront := if |parts| == 2 then "" else Join(front[1..], sep);
    assert Join(parts, sep) == Join(front, sep) + sep + last;
    if |parts| == 2 {
      assert front == [parts[0]];
      assert parts[1..] == [last];
      assert Join(parts[1..], sep) == last;
      Splice(Join(parts, sep), Join(front, sep), Join(parts[1..], sep), parts[0], sep, last);
    } else {
      assert Join(front, sep) == parts[0] + sep + restFront by {
        JoinFront(front, sep);
        assert front[0] == parts[0];
      }
      assert Join(parts[1..], sep) == restFront + sep + last by {
        assert front[1..] == parts[1..][..|parts[1..]| - 1];
        assert parts[1..][|parts[1..]| - 1] == last;
      }
      SpliceMiddle(Join(parts, sep), Join(front, sep), Join(parts[1..], sep), restFront, parts[0], sep, last);
    }
  }

  /** Re-bracketing when the front of a join is a single part. */
  lemma Splice(whole: string, init: string, rest: string, first: string, sep: string, last: string)
    requires whole == init + sep + last
    requires init == first && rest == last
    ensures whole == first + sep + rest
  {
  }

  /** Re-bracketing `(first + sep + middle) + sep + last` as `first + sep + (middle + sep + last)`. */
  lemma SpliceMiddle(whole: string, init: string, rest: string, middle: string, first: string, sep: string, last: string)
    requires whole == init + sep + last
    requires init == first + sep + middle
    requires rest == middle + sep + last
    ensures whole == first + sep + rest
  {
  }

  /** Sum of the lengths of `parts`. */
  function TotalLength(parts: seq<string>): nat
  {
    if parts == [] then 0 else TotalLength(parts[..|parts| - 1]) + |parts[|parts| - 1]|
  }

  /** The ASCII digit for `d`. */
  function DigitChar(d: nat): char
    requires d < 10
  {
    (('0' as int) + d) as char
  }

  /** Python's `f"{n}"` for a non-negative counter: decimal digits, no leading zero. */
  function Decimal(n: nat): (r: string)
    ensures |r| >= 1
    ensures forall i | 0 <= i < |r| :: '0' <= r[i] <= '9'
    ensures n >= 10 ==> r[0] != '0'
  {
    if n < 10 then [DigitChar(n)] else Decimal(n / 10) + [DigitChar(n % 10)]
  }

  /** Reads back a string of decimal digits. */
  function DecimalValue(s: string): nat
  {
    if s == [] then 0
    else
      var d := (s[|s| - 1] as int) - ('0' as int);
      DecimalValue(s[..|s| - 1]) * 10 + (if 0 <= d then d else 0)
  }

  /** Reading back a rendered counter yields the counter. */
  lemma {:induction false} DecimalRoundTrip(n: nat)
    ensures DecimalValue(Decimal(n)) == n
    decreases n
  {
    if n >= 10 {
      DecimalRoundTrip(n / 10);
      var s := Decimal(n);
      assert s[..|s| - 1] == Decimal(n / 10);
    }
  }

  /** Distinct counters render to distinct strings. */
  lemma DecimalInjective(m: nat, n: nat)
    requires Decimal(m) == Decimal(n)
    ensures m == n
  {
    DecimalRoundTrip(m);
    DecimalRoundTrip(n);
  }
}

=== FILE: wrappers.dfy ===
/** Optional values: a column that may be NULL or missing in a warehouse row. */
module Wrappers {

  datatype Option<+T> = None | Some(value: T)
}
